=== FILE: README.md ===
# Book ingestion for the RAG recommender, modelled in Dafny

This project models the decision logic of the scripts that load a JSON file of books into the
two Qdrant collections of the recommender: `tags_vecs` (one point per book, embedded from its
category text and carrying the full metadata) and `desc_vecs` (one point per book, embedded from
its description and carrying a minimal payload). There are three import scripts, and the model
keeps each one's own variant of the logic:

- the enhanced importer (`import_books_enhanced.py`): deterministic MD5-based point identifiers,
  a three-attempt embedding retry that returns None, guarded upserts, collection setup and
  clearing, and a run statistics record;
- the 1000-book importer (`import_cleaned_books_1000.py`): the same identifiers and points, an
  embedding retry that raises, and counters that count built records;
- the cleaned-books importer (`import_cleaned_books.py`): a single embedding attempt that returns
  `[]`, random identifiers, per-batch success/error counting, and run totals summed over batches
  that finish in any order.

The tag-relevance scoring of the accuracy script (`test_recommendation_accuracy.py`) is modelled
as well.

The embedding service and the store are oracles:
- `Embedding.Service` gives the reply to the n-th embedding request of a run, given its prompt.
- `Records.StoreService` gives the reply to the n-th upsert request.
- MD5 is a parameter `string -> Digest`.
- `uuid.uuid4()` is a parameter `nat -> string`.

In the enhanced and 1000-book importers every embedding request and every upsert of a run gets a
request number. A claim such as "the description embedding is never requested after the tag
embedding failed" is a statement about those numbers. Some replies are plain inputs and carry no
number:
- the service checks and the collection lookups, scrolls, deletes and creations;
- the cleaned-books importer's two upsert replies per batch;
- its embedding replies, which are numbered within a batch only.

Modules, one per file, in dependency order:

- `Wrappers` (`wrappers.dfy`): `Option`.
- `Text` (`text.dfy`): Python's `", ".join`, `in` on strings, `str()` of a natural number, and ASCII `lower()`.
- `Batching` (`batching.dfy`): the slicing `xs[i:i + size] for i in range(0, n, size)`, `ceil(n / size)`, and the loop over the batches as a fold.
- `Identity` (`identity.dfy`): `book_id_to_uuid`.
- `Embedding` (`embedding.dfy`): the embedding oracle and the bounded retry loop.
- `Records` (`records.dfy`): raw book objects, payloads, points, store replies, the upsert log, the tag text and the payload builders.
- `Enhanced` (`enhanced.dfy`), `Cleaned1000` (`cleaned1000.dfy`), `Cleaned` (`cleaned.dfy`): the three importers, record by record and batch by batch.
- `EnhancedImport` (`enhanced_import.dfy`), `Cleaned1000Main` (`cleaned1000_main.dfy`): the batch loops and runs of the first two importers. Each loop's result is the fold `Run` of its turns over the batches.
- `Upserts` (`upserts.dfy`): the three importers' upsert success rules compared.
- `Accuracy` (`accuracy.dfy`): `calculate_tag_relevance` and `analyze_recommendations`.

Each importer also has a log of upsert requests. For the enhanced and 1000-book importers the
model proves `GuardedDualWrites`: every upsert to `desc_vecs` directly follows a successful upsert
of the same identifiers to `tags_vecs`. The cleaned-books importer sends both upserts whatever the
first one returned, and `Cleaned.DescriptionUpsertIsUnguarded` shows that its log breaks the rule.

## Model

| member | source | states |
|---|---|---|
| Identity.FormatUuid | import_books_enhanced.py:39-44 | the identifier is 36 characters long, with hyphens at positions 8, 13, 18 and 23 and lower-case hex digits everywhere else; the 1000-book script's copy (import_cleaned_books_1000.py lines 20-28) is the same layout |
| Identity.RemoveHyphensOfFormat | import_books_enhanced.py:43 | dropping the hyphens of the identifier gives back exactly the 32-character digest |
| Identity.CanonicalUuidRoundTrip | import_books_enhanced.py:43 | conversely, every string in that layout is the identifier of the digest its hex digits spell |
| Identity.PointIdsEqualIffDigestsEqual | import_books_enhanced.py:39-44 | two book keys get the same point identifier exactly when their MD5 digests agree, so the same key always maps to the same point |
| Text.JoinContainsEachPart | import_books_enhanced.py:249 | every tag occurs, in full, in the comma-joined tag list |
| Text.SubstringIffSomeSuffix | test_recommendation_accuracy.py:108 | Python's `a in b` on strings holds exactly when `a` starts some suffix of `b` |
| Text.NatToStringRoundTrip | import_books_enhanced.py:238 | the decimal digits `str(index)` writes read back as the index |
| Text.LowerAllIdempotent | test_recommendation_accuracy.py:101-102 | lower-casing a list of tags twice is the same as lower-casing it once |
| Records.FallbackKeysDistinct | import_books_enhanced.py:238 | the fallback keys `bk_<index>` of two records are equal exactly when their positions are; the 1000-book script's `bk_<start_idx + i>` (its line 85) is the same key of the record's file position |
| Records.TagTextShape | import_books_enhanced.py:249 | the tag text starts with the category prefix exactly when the record has tags, and then contains every tag; otherwise it starts with the title prefix followed by exactly the title; the 1000-book script (its line 96) uses the same rule |
| Records.GuardedDualWritesAppend | import_books_enhanced.py:364-380 | appending a lone tag upsert, or a successful tag upsert followed by a description upsert of the same identifiers, keeps a guarded upsert log guarded |
| Records.KeptPayloadsWithoutOne | import_books_enhanced.py:305-313 | when exactly one record is not embeddable, the reference list of kept payloads is the expected list with that one entry removed |
| Batching.BatchesPartition | import_books_enhanced.py:353-356 | the batches concatenate back to the input in order, there are `total_batches = ceil(n / batch_size)` of them, none is empty or longer than the batch size, and all but the last are full; the cleaned-books script's list comprehension (its line 159) takes the same batches |
| Batching.BatchesUnfold | import_books_enhanced.py:353-354 | the batch the loop takes at offset `i` is the first of the batches of what is left from `i` on |
| Batching.FoldNext | import_books_enhanced.py:353-354 | the loop over the batches left from offset `i` is one turn over the slice `xs[i:i + size]` followed by the loop over the batches after it |
| Batching.CeilDivStep | import_books_enhanced.py:356 | `(n + size - 1) // size` is 0 for no records and 1 for at most one batch, and it drops by one when one full batch is removed |
| Embedding.RetryFrom | import_books_enhanced.py:187-208 | from a given attempt on, at most the remaining attempts are made; a returned vector is the embedding of the last request, which answered 200; every request before it failed; and each failed attempt but the last is followed by a pause |
| Embedding.Retry | import_books_enhanced.py:183-210 | at most `MAX_RETRIES` requests carry the text; the first delivering reply's embedding is returned; None only after `MAX_RETRIES` failures; one pause between two attempts and none after the last |
| Embedding.RetryReturnsFirstDelivery | import_books_enhanced.py:187-200 | when request number n is the first of the loop's requests to deliver, the loop returns that reply's embedding, having sent exactly the requests up to n |
| Embedding.RetryGivesUpAfterMax | import_books_enhanced.py:187-210 | against a service that never delivers, exactly `MAX_RETRIES` requests and `MAX_RETRIES - 1` pauses happen, and the loop returns None |
| Enhanced.GetEmbedding | import_books_enhanced.py:183-210 | `embedding_calls` rises by exactly one per call and no other statistic changes; between one and `MAX_RETRIES` requests go out, with the retry loop's result |
| Enhanced.ProcessBook | import_books_enhanced.py:235-297 | one or two embedding calls; a built record's two points share the identifier `book_id_to_uuid(book_id or bk_<index>)`, the tag point carries the full payload of type `book`, and the description point carries exactly `{book_id, type: book_desc}` and the delivered description vector |
| Enhanced.ProcessBookUsesTagEmbedding | import_books_enhanced.py:249-253 | a built record's tag point carries the embedding of the first reply that delivered one for the record's tag text, among the `MAX_RETRIES` requests of its `get_embedding` call |
| Enhanced.ProcessBookSkipsAfterTagFailure | import_books_enhanced.py:249-253 | a failed tag embedding skips the record after one `get_embedding` call, so the description embedding is never requested |
| Enhanced.ProcessBookSkipsAfterDescriptionFailure | import_books_enhanced.py:249-259 | when request n is the first to deliver the tag embedding and the `MAX_RETRIES` requests after it all fail for the description, the record is skipped after two calls and the next request is `n + 1 + MAX_RETRIES` |
| Enhanced.ProcessBookBuildsWhenDelivered | import_books_enhanced.py:249-293 | when request n is the first to deliver the tag embedding and request m the first after it to deliver the description embedding, the record is built from exactly those two replies' vectors and the next request is `m + 1` |
| Enhanced.ProcessBatch | import_books_enhanced.py:299-315 | both point lists have length `successful_count` and pair up record by record; `failed_uploads` rises by `len(books) - successful_count`; embedding calls lie between `len(books) + successful_count` and `2 * len(books)` |
| Enhanced.ProcessBatchKeepsOrder | import_books_enhanced.py:305-311 | the tag points' payloads are an in-order subsequence of the expected payloads of the batch's records |
| Enhanced.ProcessBatchKeepsEveryBookWhenDelivered | import_books_enhanced.py:305-311 | against a service that always delivers, every record is kept with its expected payload, in order, and nothing is counted as failed |
| Enhanced.ProcessBookUnderRefusals | import_books_enhanced.py:249-259 | against a service that refuses exactly a set of texts, whatever the request number, a record is built exactly when neither its tag text nor its description is refused |
| Enhanced.ProcessBatchIsolatesFailures | import_books_enhanced.py:305-313 | a skipped record never aborts the batch: against a service that refuses exactly a set of texts, the tag points carry exactly the expected payloads of the records whose own texts are not refused, in input order, and `successful_count` is their number |
| Enhanced.ProcessBatchDropsOnlyTheRefusedRecord | import_books_enhanced.py:305-313 | when only record j's tag text is refused and no other record uses it, `successful_count` is `len(books) - 1`, the kept payloads are the expected ones without entry j, and `failed_uploads` rises by exactly one |
| Enhanced.UpsertToQdrant | import_books_enhanced.py:212-233 | an empty list succeeds without a request; otherwise success means a 200 reply whose body says `status: ok` |
| Enhanced.ClearCollection | import_books_enhanced.py:122-160 | points are deleted exactly when the scroll returned a non-empty page, and then they are the ones deleted; success needs a 200 scroll with a readable page, and either an empty page or an acknowledged delete |
| Enhanced.SetupOne | import_books_enhanced.py:168-178 | the collection is looked up first; it is created exactly when it does not exist and cleared exactly when it exists and clearing was asked for; the turn succeeds by the matching rule |
| Enhanced.SetupCollections | import_books_enhanced.py:162-181 | setup succeeds exactly when both collections' turns succeed; a failed `tags_vecs` turn stops before `desc_vecs` is touched; nothing is cleared unless clearing was asked for |
| Enhanced.ClearedPageIsDeleted | import_books_enhanced.py:133-157 | a successful clear deletes exactly the page of identifiers the scroll listed, and a non-empty page was deleted with an acknowledged reply |
| Enhanced.SetupCollectionsLeavesBothExisting | import_books_enhanced.py:166-181 | after a successful setup each collection was found by its lookup or created with an acknowledged reply, each one found was cleared when clearing was asked for, and both were looked up |
| Enhanced.BatchStep | import_books_enhanced.py:362-384 | the built count is `process_batch`'s `successful_count`; the batch is uploaded exactly when some record was built and the store acknowledged both the tag and the description upsert; only then do `processed_books` (by the batch size) and `successful_uploads` (by the built count) grow; `failed_uploads` rises by the skipped records; no upsert is made when nothing was built; a built batch is always sent to `tags_vecs`, and to `desc_vecs` (with the same identifiers) only after that succeeded |
| Enhanced.BatchStepKeepsCounts | import_books_enhanced.py:362-384 | a turn keeps each record counted at most once as uploaded or failed and `successful_uploads <= processed_books <= records handled` |
| Enhanced.BatchStepUploadsWhenAllSucceed | import_books_enhanced.py:362-384 | a non-empty batch whose embeddings are all delivered and whose two upserts are acknowledged adds its whole size to both `processed_books` and `successful_uploads`, with no failure |
| Enhanced.AfterBatchUploadsWhenAllSucceed | import_books_enhanced.py:362-384 | against services that deliver every embedding and acknowledge every upsert, a turn over a non-empty batch adds its size to `processed_books` and `successful_uploads` and leaves `failed_uploads` unchanged |
| EnhancedImport.ImportStep | import_books_enhanced.py:353-384 | one turn of the loop at offset `i` keeps the counters within the records handled and the loop's result equal to the fold over all batches; against services that deliver and acknowledge everything, `processed_books` and `successful_uploads` stay equal to the records handled |
| EnhancedImport.ImportLoop | import_books_enhanced.py:353-394 | the loop visits exactly the batches that partition the input, `ceil(n / batch_size)` of them; its result is the fold of the turns over those batches; it ends with `successful_uploads <= processed_books <= total_books` and each record counted at most once as uploaded or failed; against services that deliver and acknowledge everything, every record ends processed and uploaded and none failed |
| EnhancedImport.ImportBooks | import_books_enhanced.py:317-400 | the import runs exactly when the service check, the collection setup and the load all succeed, and otherwise reports the first stage that failed; a run's statistics are the fold of the turns over the file's batches, within the bounds above, with a guarded upsert log, and all records uploaded against services that deliver and acknowledge everything |
| Cleaned1000.GetEmbedding | import_cleaned_books_1000.py:30-56 | at most three requests; the first delivering reply's embedding is returned; after three failures the function raises, and no fourth request is made |
| Cleaned1000.BuildRecord | import_cleaned_books_1000.py:83-134 | a built record's two points share `book_id_to_uuid(book_id or bk_<start_idx + i>)` and carry the full payload and exactly `{book_id, type: book_desc}`; the description point carries the delivered description vector |
| Cleaned1000.BuildRecordUsesTagEmbedding | import_cleaned_books_1000.py:96-97 | a built record's tag point carries the embedding of the first reply that delivered one for the record's tag text, among the three requests of its `get_embedding` call |
| Cleaned1000.BuildRecordSkipsAfterTagFailure | import_cleaned_books_1000.py:96-138 | a raising tag embedding skips the record after exactly three requests, none for the description |
| Cleaned1000.BuildRecordBuildsWhenDelivered | import_cleaned_books_1000.py:96-134 | when request n is the first to deliver the tag embedding and request m the first after it to deliver the description embedding, the record is built from exactly those two replies' vectors and the next request is `m + 1` |
| Cleaned1000.ProcessBooksBatch | import_cleaned_books_1000.py:77-140 | both lists have length `successful_count`, at most the batch size, and pair up record by record; at least one request per record |
| Cleaned1000.ProcessBooksBatchKeepsOrder | import_cleaned_books_1000.py:83-140 | the tag points' payloads are an in-order subsequence of the expected payloads of the batch's records |
| Cleaned1000.ProcessBooksBatchKeepsEveryBookWhenDelivered | import_cleaned_books_1000.py:83-134 | against a service that always delivers, every record is kept with its expected payload after exactly two requests per record |
| Cleaned1000.BuildRecordUnderRefusals | import_cleaned_books_1000.py:96-134 | against a service that refuses exactly a set of texts, a record is built exactly when neither its tag text nor its description is refused |
| Cleaned1000.ProcessBooksBatchIsolatesFailures | import_cleaned_books_1000.py:83-140 | the `except` isolates each record: against a service that refuses exactly a set of texts, skipped records leave no points and the tag points carry exactly the expected payloads of the other records, in input order |
| Cleaned1000.ProcessBooksBatchDropsOnlyTheRefusedRecord | import_cleaned_books_1000.py:83-140 | when only record j's tag text is refused and no other record uses it, `successful_count` is `len(books) - 1` and the kept payloads are the expected ones without entry j |
| Upserts.EnhancedAnd1000Agree | import_cleaned_books_1000.py:58-75 | on every non-empty list the 1000-book upsert succeeds exactly when the enhanced one does (lines 212-233 of import_books_enhanced.py); on the empty list the enhanced one succeeds without a request while the 1000-book one succeeds exactly on an acknowledged reply |
| Cleaned1000.EmptyUpsertIsSent | import_cleaned_books_1000.py:58-75 | an empty list is not short-circuited: for every reply its upsert succeeds exactly as a non-empty one would, so it fails on any exception, any status but 200 and any body without `status: ok` |
| Cleaned1000.BatchTurn | import_cleaned_books_1000.py:191-212 | the built count is `process_books_batch`'s `successful_count`; `total_processed` grows by it before any upload; the batch is uploaded exactly when some record was built and both upserts were acknowledged, and only then does `total_uploaded` grow by the built count; a built batch is always sent to `tags_vecs`, and to `desc_vecs` only after that succeeded |
| Cleaned1000.BatchTurnUploadsWhenAllSucceed | import_cleaned_books_1000.py:191-212 | a non-empty batch whose embeddings are all delivered and whose two upserts are acknowledged adds its whole size to both `total_processed` and `total_uploaded` |
| Cleaned1000.AfterBatchUploadsWhenAllSucceed | import_cleaned_books_1000.py:191-212 | against services that deliver every embedding and acknowledge every upsert, a turn over a non-empty batch adds its size to both `total_processed` and `total_uploaded` |
| Cleaned1000Main.MainStep | import_cleaned_books_1000.py:184-212 | one turn of the loop at offset `i` keeps `total_uploaded <= total_processed <= records handled` and the loop's result equal to the fold over all batches; against services that deliver and acknowledge everything, both totals stay equal to the records handled |
| Cleaned1000Main.MainLoop | import_cleaned_books_1000.py:184-229 | the loop visits exactly the batches that partition the input, `ceil(n / 10)` of them; its result is the fold of the turns over those batches; it ends with `total_uploaded <= total_processed <= total_books`, and with `total_processed == total_uploaded == total_books` against services that deliver and acknowledge everything |
| Cleaned1000Main.RunImport | import_cleaned_books_1000.py:142-229 | the loop runs exactly when both services answered and the file loaded; the totals are then the fold of the turns over the file's batches, within the bound above, and equal to the number of books against services that deliver and acknowledge everything |
| Cleaned.GetEmbedding | import_cleaned_books.py:20-39 | one request; the result is non-empty exactly when the reply is 200 with a non-empty `embedding`, and is then that list; it is `[]` otherwise |
| Cleaned.GetEmbeddingIsOneAttempt | import_cleaned_books.py:20-39 | `get_embedding` is the enhanced retry loop cut to one attempt: a non-empty result is exactly what that attempt returns, a failed attempt gives `[]`, and a delivered vector is passed on unchanged |
| Upserts.CleanedRuleIsLaxer | import_cleaned_books.py:41-57 | the cleaned-books upsert accepts every reply the other importers accept after a request, and besides them exactly the 200 replies whose body does not say `status: ok` |
| Cleaned.UpsertToCollectionIgnoresBody | import_cleaned_books.py:50-54 | the reply body never matters: every acknowledged reply succeeds, and so does a 200 reply whose body reports an error |
| Cleaned.ProcessRecord | import_cleaned_books.py:69-126 | a record is stored exactly when every key is present and both embeddings are non-empty; no request is made without `book_id` and `tags`; the description is not requested after an empty tag vector; a stored record's points share the `uuid4()` identifier, which is also each payload's `book_id`, and keep the file's `book_id` as `original_id` |
| Cleaned.CollectPoints | import_cleaned_books.py:68-126 | the counters sum to the batch size; the lists pair up by identifier; the loop raises exactly when the batch holds a non-object entry |
| Cleaned.CollectPointsAllSucceed | import_cleaned_books.py:68-122 | a batch of complete objects against a service that always returns a vector has no error |
| Cleaned.CollectPointsIsolatesFailures | import_cleaned_books.py:68-126 | each record's own outcome decides its counter: against a service that returns a vector for every text but a refused set, a batch of objects collects exactly the tag payloads of the complete records whose texts are not refused, in order, and `success_count` is their number |
| Cleaned.CollectPointsIsolatesOneFailure | import_cleaned_books.py:68-126 | when exactly one object of the batch is not storable, `success_count` is `len(books) - 1` and `error_count` is 1 |
| Cleaned.ProcessBookBatch | import_cleaned_books.py:59-137 | both upserts are always made, to `tags_vecs` then `desc_vecs`, with the collected identifiers, each logged with its own reply's verdict; the batch reports the collected counters when both succeeded and `{0, len(books)}` otherwise, so success plus error is the batch size |
| Cleaned.DescriptionUpsertIsUnguarded | import_cleaned_books.py:128-130 | after a failed tag upsert the description points are still sent, so the upsert log breaks `GuardedDualWrites` |
| Cleaned.Submit | import_cleaned_books.py:164-168 | one future per batch, each with its own batch |
| Cleaned.SumPermutation | import_cleaned_books.py:170-175 | the run totals do not depend on the order in which `as_completed` yields the futures |
| Cleaned.SumCountsEveryRecord | import_cleaned_books.py:170-178 | with the corrected handler, the totals over the batches count each record of the file exactly once |
| Cleaned.ImportCountsEveryRecord | import_cleaned_books.py:159-178 | with the corrected handler, success plus error equals the number of entries in the file, whatever the completion order |
| Cleaned.ImportFile | import_cleaned_books.py:139-178 | a failed file read returns before any batch and reports no totals; a loaded file gives success and error totals that add up to its number of entries (with the corrected handler) |
| Cleaned.ImportAsWrittenOvercounts | import_cleaned_books.py:176-178 | as written, a file with one non-object entry reports 10 errors for its single record; the corrected handler reports 1 |
| Accuracy.MatchCount | test_recommendation_accuracy.py:104-111 | each expected tag counts at most once, so matches never exceed the number of expected tags |
| Accuracy.Relevance | test_recommendation_accuracy.py:95-113 | the score lies in [0, 1] and is 0 when either list is empty |
| Accuracy.CalculateTagRelevance | test_recommendation_accuracy.py:95-113 | the nested loops with `break` compute the reference score and stay in [0, 1] |
| Accuracy.MatchCountFull | test_recommendation_accuracy.py:104-111 | every expected tag is counted exactly when each one matches some book tag |
| Accuracy.MatchCountNone | test_recommendation_accuracy.py:104-111 | no expected tag is counted exactly when none matches any book tag |
| Accuracy.RelevanceOneIffAllMatch | test_recommendation_accuracy.py:95-113 | the score is 1 exactly when both lists are non-empty and every lower-cased expected tag is a substring of, or contains, some lower-cased book tag |
| Accuracy.RelevanceZeroIffNoMatch | test_recommendation_accuracy.py:97-113 | the score is 0 exactly when a list is empty or no expected tag matches in either direction |
| Accuracy.RelevanceIgnoresCase | test_recommendation_accuracy.py:100-102 | lower-casing the inputs beforehand does not change the score |
| Accuracy.Scores | test_recommendation_accuracy.py:120-124 | one score per result, in order, taken with `tags` defaulting to `[]` |
| Accuracy.SumOfUnitScores | test_recommendation_accuracy.py:126 | a sum of scores in [0, 1] lies between 0 and their number |
| Accuracy.Mean | test_recommendation_accuracy.py:126-128 | the mean of scores in [0, 1] is in [0, 1], and times their number gives back their sum |
| Accuracy.AnalyzeRecommendations | test_recommendation_accuracy.py:115-135 | no results give all zeros with `total_books` 0; otherwise `total_books` is the result count, top-1 is the first book's score, `avg_relevance` is the sum of the scores divided by their number, `top3_relevance` the sum of the first `min(3, len)` scores divided by that number, and all three figures lie in [0, 1] |
| Accuracy.AverageTimesCountIsSum | test_recommendation_accuracy.py:126 | `avg_relevance` times the number of results is the sum of their scores |
| Accuracy.SummaryOfUniformScores | test_recommendation_accuracy.py:126-128 | when every result has the same score, the mean, top-1 and top-3 figures all equal it |
| Accuracy.Top3IsMeanOfFirstThree | test_recommendation_accuracy.py:128 | with three or more results the top-3 figure is the mean of the first three scores; with fewer it is the overall mean |

## Left out

- HTTP traffic is not modelled: `check_services`, the service checks in the 1000-book `main` and the collection lookups are reduced to the replies they return, and the service checks to one boolean.
- `verify_collections` (import_books_enhanced.py:398, 440) is not modelled: it runs after the import only to print the two collections' point counts, and changes nothing the model states.
- MD5 itself and the randomness of `uuid.uuid4()` are not modelled: both are parameters. For the cleaned-books importer the model does not assume the random identifiers are distinct.
- `time.sleep` and all timing, throughput and ETA arithmetic (`print_progress`, `print_final_report`, the progress prints in `main`) are left out. Pauses are counted in `Embedding.Attempts.sleeps`, but their length is not modelled.
- Console output, argparse, and JSON file reading and writing are left out. For `EnhancedImport.ImportBooks`, `Cleaned1000Main.RunImport` and `Cleaned.ImportFile` the loaded file is an `Option`, None when reading or parsing failed. `Cleaned.Import` and `Cleaned.ImportAsWritten` take the already-parsed list.
- `ThreadPoolExecutor` scheduling in the cleaned-books importer is not modelled. Batches are independent, and the completion order is any permutation of the submitted futures (`Cleaned.SumPermutation`). Embedding requests are numbered per batch, because parallel batches have no common request order.
- `run_accuracy_test`, `debug_similarity.py` and `calc_similarity.py` (network calls, numpy and float averages printed to files) are not part of this model.
- Floating point is not modelled: relevance scores and embedding vectors use `real`.
- `Enhanced.ClearCollection` reads a single scroll page of at most 10000 points, as the code does; paging through a larger collection is not modelled.
- A JSON `null` or a non-list under `embedding`, non-string `book_id` values, and non-string entries in `tags` are not modelled. Those fields are strings and lists of strings.
- Entries of the loaded list that are not JSON objects are modelled only for the cleaned-books importer, where they crash their batch. In the enhanced importer such an entry makes the whole batch raise and be skipped by the loop's `except`. In the 1000-book importer the `except` would print a possibly unbound `title`. Neither case is modelled.
- `EnhancedImport.ImportLoop`: requires `batch_size > 0`. A zero batch size makes Python's `range` raise, and a negative one runs no batch; neither case is modelled. `ImportBooks` takes the batch size as a parameter (the script's default is `DEFAULT_BATCH_SIZE`, 10).
- `Enhanced.ProcessBatchKeepsOrder`: states only that the kept payloads are an in-order subsequence of the expected ones, for every service. Which records are dropped depends on every reply of the batch. The exact list is stated by `Enhanced.ProcessBatchIsolatesFailures`, for services that refuse a fixed set of texts.
- `Cleaned1000.ProcessBooksBatchKeepsOrder`: the same, with `Cleaned1000.ProcessBooksBatchIsolatesFailures` stating the exact list.
- `Enhanced.GetEmbedding`: does not return the number of pauses; `Embedding.Retry` states it.
- `Accuracy.SummaryOfUniformScores`: holds for real-valued scores only. With the script's doubles, three scores of 0.2 average to 0.20000000000000004 while top-1 is 0.2.
- `Text.LowerAllIdempotent`: lower-casing covers ASCII letters only; Python's full Unicode `str.lower()` is not modelled.

## Findings

| source | as written | input that shows it | evidently intended | confidence | as-written member | corrected member |
|---|---|---|---|---|---|---|
| import_cleaned_books.py:176-178 | a batch whose future raised adds `BATCH_SIZE` (10) to `total_error`, whatever the batch's length | a file holding one entry that is not a JSON object: its batch of one raises, and the run reports 0 successes and 10 errors for 1 book | add the number of records in that batch, so that successes plus errors equal the number of books | not executed; the overcount follows from the code | Cleaned.ImportAsWrittenOvercounts | Cleaned.ImportCountsEveryRecord |

=== FILE: accuracy.dfy ===
/** test_recommendation_accuracy.py: the tag-relevance score of one recommended book and the
    summary over a list of recommendations. */
module Accuracy {
  import opened Wrappers
  import opened Text
  import opened Batching

  /** `expected in book_tag or book_tag in expected`. */
  predicate TagsMatch(expected: string, bookTag: string)
  {
    IsSubstring(expected, bookTag) || IsSubstring(bookTag, expected)
  }

  /** Some tag of the book matches the expected tag. */
  predicate HasMatch(expected: string, bookTags: seq<string>)
  {
    exists t :: t in bookTags && TagsMatch(expected, t)
  }

  /** How many of the expected tags match some tag of the book, each counted once. */
  function MatchCount(expected: seq<string>, bookTags: seq<string>): (c: nat)
    ensures c <= |expected|
    decreases |expected|
  {
    if |expected| == 0 then 0
    else MatchCount(expected[..|expected| - 1], bookTags) + (if HasMatch(expected[|expected| - 1], bookTags) then 1 else 0)
  }

  /** `calculate_tag_relevance`: 0 when either list is empty, and otherwise the share of the
      expected tags that match a book tag, both compared lower-cased. */
  function Relevance(bookTags: seq<string>, expectedTags: seq<string>): (r: real)
    ensures 0.0 <= r <= 1.0
    ensures |bookTags| == 0 || |expectedTags| == 0 ==> r == 0.0
  {
    if |bookTags| == 0 || |expectedTags| == 0 then 0.0
    else
      var matches := MatchCount(LowerAll(expectedTags), LowerAll(bookTags));
      DivisionBounds(matches as real, |expectedTags| as real);
      matches as real / |expectedTags| as real
  }

  lemma DivisionBounds(x: real, n: real)
    requires 0.0 <= x <= n && n > 0.0
    ensures 0.0 <= x / n <= 1.0
  {
  }

  /** The loops of `calculate_tag_relevance`: for each expected tag, scan the book's tags until
      the first match and count it. */
  method CalculateTagRelevance(bookTags: seq<string>, expectedTags: seq<string>) returns (r: real)
    ensures r == Relevance(bookTags, expectedTags)
    ensures 0.0 <= r <= 1.0
  {
    if |bookTags| == 0 || |expectedTags| == 0 {
      return 0.0;
    }
    var bookLower := LowerAll(bookTags);
    var expectedLower := LowerAll(expectedTags);
    var matches := 0;
    var i := 0;
    while i < |expectedLower|
      invariant 0 <= i <= |expectedLower|
      invariant matches == MatchCount(expectedLower[..i], bookLower)
    {
      var expected := expectedLower[i];
      var found := false;
      var j := 0;
      while j < |bookLower| && !found
        invariant 0 <= j <= |bookLower|
        invariant found <==> exists k :: 0 <= k < j && TagsMatch(expected, bookLower[k])
      {
        if TagsMatch(expected, bookLower[j]) {
          found := true;
        }
        j := j + 1;
      }
      assert found <==> HasMatch(expected, bookLower);
      if found {
        matches := matches + 1;
      }
      assert expectedLower[..i + 1][..i] == expectedLower[..i];
      i := i + 1;
    }
    assert expectedLower[..i] == expectedLower;
    r := matches as real / |expectedLower| as real;
  }

  /** A ratio is 1 exactly when its terms agree, and 0 exactly when its numerator is. */
  lemma RatioIsOneOrZero(x: real, n: real)
    requires n > 0.0
    ensures x / n == 1.0 <==> x == n
    ensures x / n == 0.0 <==> x == 0.0
  {
    assert (x / n) * n == x;
  }

  /** Every expected tag is counted exactly when each of them matches a book tag. */
  lemma {:induction false} MatchCountFull(expected: seq<string>, bookTags: seq<string>)
    ensures MatchCount(expected, bookTags) == |expected| <==> forall k :: 0 <= k < |expected| ==> HasMatch(expected[k], bookTags)
    decreases |expected|
  {
    if |expected| > 0 {
      var init := expected[..|expected| - 1];
      MatchCountFull(init, bookTags);
      assert forall k :: 0 <= k < |init| ==> init[k] == expected[k];
    }
  }

  /** No expected tag is counted exactly when none of them matches a book tag. */
  lemma {:induction false} MatchCountNone(expected: seq<string>, bookTags: seq<string>)
    ensures MatchCount(expected, bookTags) == 0 <==> forall k :: 0 <= k < |expected| ==> !HasMatch(expected[k], bookTags)
    decreases |expected|
  {
    if |expected| > 0 {
      var init := expected[..|expected| - 1];
      MatchCountNone(init, bookTags);
      assert forall k :: 0 <= k < |init| ==> init[k] == expected[k];
    }
  }

  /** The score is 1 exactly when both lists are non-empty and every expected tag matches a
      book tag, compared lower-cased. */
  lemma RelevanceOneIffAllMatch(bookTags: seq<string>, expectedTags: seq<string>)
    ensures Relevance(bookTags, expectedTags) == 1.0 <==>
              && |bookTags| > 0 && |expectedTags| > 0
              && forall k :: 0 <= k < |expectedTags| ==> HasMatch(Lower(expectedTags[k]), LowerAll(bookTags))
  {
    if |bookTags| > 0 && |expectedTags| > 0 {
      var e := LowerAll(expectedTags);
      assert forall k :: 0 <= k < |expectedTags| ==> e[k] == Lower(expectedTags[k]);
      MatchCountFull(e, LowerAll(bookTags));
      var m := MatchCount(e, LowerAll(bookTags));
      var n := |expectedTags| as real;
      RatioIsOneOrZero(m as real, n);
    }
  }

  /** The score is 0 exactly when a list is empty or no expected tag matches a book tag. */
  lemma RelevanceZeroIffNoMatch(bookTags: seq<string>, expectedTags: seq<string>)
    ensures Relevance(bookTags, expectedTags) == 0.0 <==>
              || |bookTags| == 0 || |expectedTags| == 0
              || forall k :: 0 <= k < |expectedTags| ==> !HasMatch(Lower(expectedTags[k]), LowerAll(bookTags))
  {
    if |bookTags| > 0 && |expectedTags| > 0 {
      var e := LowerAll(expectedTags);
      assert forall k :: 0 <= k < |expectedTags| ==> e[k] == Lower(expectedTags[k]);
      MatchCountNone(e, LowerAll(bookTags));
      var m := MatchCount(e, LowerAll(bookTags));
      var n := |expectedTags| as real;
      RatioIsOneOrZero(m as real, n);
    }
  }

  /** Lower-casing the inputs first does not change the score. */
  lemma RelevanceIgnoresCase(bookTags: seq<string>, expectedTags: seq<string>)
    ensures Relevance(LowerAll(bookTags), LowerAll(expectedTags)) == Relevance(bookTags, expectedTags)
  {
    LowerAllIdempotent(bookTags);
    LowerAllIdempotent(expectedTags);
  }

  /** A result of the recommendation API; `tags` is None when the object lacks the key. */
  datatype RecommendedBook = RecommendedBook(tags: Option<seq<string>>)

  /** The summary `analyze_recommendations` returns. */
  datatype Summary = Summary(avgRelevance: real, top1Relevance: real, top3Relevance: real, totalBooks: nat)

  /** `relevance_scores`, one per result, in order. */
  function Scores(results: seq<RecommendedBook>, expectedTags: seq<string>): (s: seq<real>)
    ensures |s| == |results|
    ensures forall k :: 0 <= k < |s| ==> s[k] == Relevance(results[k].tags.GetOr([]), expectedTags)
    decreases |results|
  {
    if |results| == 0 then []
    else [Relevance(results[0].tags.GetOr([]), expectedTags)] + Scores(results[1..], expectedTags)
  }

  function SumReals(xs: seq<real>): real
    decreases |xs|
  {
    if |xs| == 0 then 0.0 else xs[0] + SumReals(xs[1..])
  }

  /** A sum of scores in [0, 1] lies between 0 and their number. */
  lemma {:induction false} SumOfUnitScores(xs: seq<real>)
    requires forall k :: 0 <= k < |xs| ==> 0.0 <= xs[k] <= 1.0
    ensures 0.0 <= SumReals(xs) <= |xs| as real
    decreases |xs|
  {
    if |xs| > 0 {
      SumOfUnitScores(xs[1..]);
    }
  }

  /** The mean of scores in [0, 1] lies in [0, 1], and times their number gives back their sum. */
  function Mean(xs: seq<real>): (m: real)
    requires |xs| > 0
    requires forall k :: 0 <= k < |xs| ==> 0.0 <= xs[k] <= 1.0
    ensures 0.0 <= m <= 1.0
    ensures m * |xs| as real == SumReals(xs)
  {
    SumOfUnitScores(xs);
    DivisionBounds(SumReals(xs), |xs| as real);
    SumReals(xs) / |xs| as real
  }

  /** `analyze_recommendations`: all zeros for no results; otherwise the mean score, the first
      score, and the mean of the first `min(3, len)` scores, each in [0, 1]. */
  function AnalyzeRecommendations(results: seq<RecommendedBook>, expectedTags: seq<string>): (r: Summary)
    ensures r.totalBooks == |results|
    ensures |results| == 0 ==> r == Summary(0.0, 0.0, 0.0, 0)
    ensures |results| > 0 ==> r.top1Relevance == Relevance(results[0].tags.GetOr([]), expectedTags)
    ensures 0.0 <= r.avgRelevance <= 1.0 && 0.0 <= r.top1Relevance <= 1.0 && 0.0 <= r.top3Relevance <= 1.0
    ensures |results| > 0 ==> r.avgRelevance == SumReals(Scores(results, expectedTags)) / |results| as real
    ensures |results| > 0 ==> r.top3Relevance == SumReals(Scores(results, expectedTags)[..Min(3, |results|)])
                                                 / Min(3, |results|) as real
  {
    if |results| == 0 then Summary(0.0, 0.0, 0.0, 0)
    else
      var scores := Scores(results, expectedTags);
      var first := scores[..Min(3, |scores|)];
      assert |first| == Min(3, |results|);
      var avg, top3 := Mean(scores), Mean(first);
      Summary(avg, scores[0], top3, |results|)
  }

  /** The average times the number of results gives back the sum of their scores. */
  lemma AverageTimesCountIsSum(results: seq<RecommendedBook>, expectedTags: seq<string>)
    requires |results| > 0
    ensures AnalyzeRecommendations(results, expectedTags).avgRelevance * |results| as real
            == SumReals(Scores(results, expectedTags))
  {
    var n := |results| as real;
    var total := SumReals(Scores(results, expectedTags));
    assert (total / n) * n == total;
  }

  /** Scores that are all equal to `v` sum to their number times `v`. */
  lemma {:induction false} SumOfEqualScores(xs: seq<real>, v: real)
    requires forall k :: 0 <= k < |xs| ==> xs[k] == v
    ensures SumReals(xs) == |xs| as real * v
    decreases |xs|
  {
    if |xs| > 0 {
      SumOfEqualScores(xs[1..], v);
    }
  }

  /** The mean of scores that all equal `v` is `v`. */
  lemma MeanOfEqualScoresIs(xs: seq<real>, v: real)
    requires |xs| > 0 && 0.0 <= v <= 1.0
    requires forall k :: 0 <= k < |xs| ==> xs[k] == v
    ensures Mean(xs) == v
  {
    SumOfEqualScores(xs, v);
    var n := |xs| as real;
    assert (n * v) / n == v;
  }

  /** When every result scores the same, the mean, top-1 and top-3 figures are all that score. */
  lemma SummaryOfUniformScores(results: seq<RecommendedBook>, expectedTags: seq<string>, v: real)
    requires |results| > 0
    requires forall k :: 0 <= k < |results| ==> Relevance(results[k].tags.GetOr([]), expectedTags) == v
    ensures AnalyzeRecommendations(results, expectedTags).avgRelevance == v
    ensures AnalyzeRecommendations(results, expectedTags).top1Relevance == v
    ensures AnalyzeRecommendations(results, expectedTags).top3Relevance == v
  {
    var scores := Scores(results, expectedTags);
    assert scores[0] == v;
    MeanOfEqualScoresIs(scores, v);
    var first := scores[..Min(3, |scores|)];
    assert forall k :: 0 <= k < |first| ==> first[k] == scores[k];
    MeanOfEqualScoresIs(first, v);
  }

  /** The top-3 figure is the mean of the first three scores, and with fewer than three results
      it is the overall mean. */
  lemma Top3IsMeanOfFirstThree(results: seq<RecommendedBook>, expectedTags: seq<string>)
    requires |results| > 0
    ensures |results| >= 3 ==> AnalyzeRecommendations(results, expectedTags).top3Relevance
                               == (Relevance(results[0].tags.GetOr([]), expectedTags)
                                   + Relevance(results[1].tags.GetOr([]), expectedTags)
                                   + Relevance(results[2].tags.GetOr([]), expectedTags)) / 3.0
    ensures |results| < 3 ==> AnalyzeRecommendations(results, expectedTags).top3Relevance
                              == AnalyzeRecommendations(results, expectedTags).avgRelevance
  {
    var scores := Scores(results, expectedTags);
    if |results| >= 3 {
      var first := scores[..3];
      assert SumReals(first[2..]) == first[2] + SumReals(first[2..][1..]);
      assert first[2..][1..] == [];
      assert first[1..][1..] == first[2..];
      assert SumReals(first[1..]) == first[1] + SumReals(first[2..]);
      assert SumReals(first) == first[0] + SumReals(first[1..]);
    } else {
      assert scores[..Min(3, |scores|)] == scores;
    }
  }
}

=== FILE: batching.dfy ===
/** The slicing `xs[i:i + size] for i in range(0, len(xs), size)` shared by the three import scripts. */
module Batching {

  function Min(a: int, b: int): int { if a <= b then a else b }

  /** The batches of `size` consecutive items, the last one possibly shorter. */
  function Batches<T>(xs: seq<T>, size: nat): seq<seq<T>>
    requires size > 0
    decreases |xs|
  {
    if |xs| == 0 then [] else [xs[..Min(size, |xs|)]] + Batches(xs[Min(size, |xs|)..], size)
  }

  /** The batches laid end to end. */
  function Flatten<T>(bs: seq<seq<T>>): seq<T>
    decreases |bs|
  {
    if |bs| == 0 then [] else bs[0] + Flatten(bs[1..])
  }

  /** `(n + size - 1) // size`, the scripts' `total_batches`. */
  function CeilDiv(n: nat, size: nat): nat
    requires size > 0
  {
    (n + size - 1) / size
  }

  lemma {:induction false} MulAtLeast(a: nat, d: int)
    requires a >= 1 && d > 0
    ensures a * d >= d
    decreases a
  {
    if a > 1 {
      MulAtLeast(a - 1, d);
      assert a * d == (a - 1) * d + d;
    }
  }

  /** Euclidean division has one quotient. */
  lemma DivUnique(x: int, d: int, q: int, r: int)
    requires d > 0 && 0 <= r < d && x == q * d + r
    ensures x / d == q
  {
    var q' := x / d;
    var r' := x % d;
    assert x == q' * d + r';
    if q' < q {
      assert (q - q') * d == q * d - q' * d;
      MulAtLeast(q - q', d);
    } else if q' > q {
      assert (q' - q) * d == q' * d - q * d;
      MulAtLeast(q' - q, d);
    }
  }

  lemma CeilDivStep(n: nat, size: nat)
    requires size > 0
    ensures n > size ==> CeilDiv(n, size) == 1 + CeilDiv(n - size, size)
    ensures 0 < n <= size ==> CeilDiv(n, size) == 1
    ensures n == 0 ==> CeilDiv(n, size) == 0
  {
    if n > size {
      var q := (n - size + size - 1) / size;
      var r := (n - size + size - 1) % size;
      DivUnique(n + size - 1, size, q + 1, r);
    } else if n > 0 {
      DivUnique(n + size - 1, size, 1, n - 1);
    } else {
      DivUnique(n + size - 1, size, 0, size - 1);
    }
  }

  /** The batches partition the input in order, there are `total_batches` of them, none is
      empty or larger than `size`, and only the last one may be shorter. */
  lemma {:induction false} BatchesPartition<T>(xs: seq<T>, size: nat)
    requires size > 0
    ensures Flatten(Batches(xs, size)) == xs
    ensures |Batches(xs, size)| == CeilDiv(|xs|, size)
    ensures forall k :: 0 <= k < |Batches(xs, size)| ==> 0 < |Batches(xs, size)[k]| <= size
    ensures forall k :: 0 <= k < |Batches(xs, size)| - 1 ==> |Batches(xs, size)[k]| == size
    decreases |xs|
  {
    CeilDivStep(|xs|, size);
    if |xs| > 0 {
      var m := Min(size, |xs|);
      var bs := Batches(xs, size);
      var rest := Batches(xs[m..], size);
      BatchesPartition(xs[m..], size);
      assert bs[1..] == rest;
      assert xs[..m] + xs[m..] == xs;
      assert forall k :: 1 <= k < |bs| ==> bs[k] == rest[k - 1];
      if |xs| > size {
        assert |rest| > 0;
      }
    }
  }

  /** Each batch is the slice the loop `for i in range(0, n, size)` takes at its turn:
      the first batch of what is left from `i` on is `xs[i:i + size]`. */
  lemma BatchesUnfold<T>(xs: seq<T>, i: nat, size: nat)
    requires size > 0 && i < |xs|
    ensures Batches(xs[i..], size)
         == [xs[i..Min(i + size, |xs|)]] + Batches(xs[Min(i + size, |xs|)..], size)
  {
    var m := Min(size, |xs| - i);
    assert xs[i..][..m] == xs[i..Min(i + size, |xs|)];
    assert xs[i..][m..] == xs[Min(i + size, |xs|)..];
  }

  /** One turn of the slicing loop: if the batches taken so far followed by the batches of what
      is left from `i` on are all the batches, the same holds once the slice at `i` is taken. */
  lemma BatchesTake<T>(xs: seq<T>, i: nat, size: nat, taken: seq<seq<T>>)
    requires size > 0 && i < |xs|
    requires taken + Batches(xs[i..], size) == Batches(xs, size)
    ensures taken + [xs[i..Min(i + size, |xs|)]] + Batches(xs[Min(i + size, |xs|)..], size) == Batches(xs, size)
  {
    BatchesUnfold(xs, i, size);
  }

  /** The loop `for i in range(0, n, size): state = step(state, xs[i:i + size], i)` read over
      the batches: one step per batch, in order, each batch starting at the position that
      follows the batches before it. */
  function Fold<S, T>(step: (S, seq<T>, nat) -> S, s: S, bs: seq<seq<T>>, start: nat): S
    decreases |bs|
  {
    if |bs| == 0 then s else Fold(step, step(s, bs[0], start), bs[1..], start + |bs[0]|)
  }

  /** One turn of the slicing loop inside the fold: folding over the batches of what is left from
      `i` on is one step over the slice at `i`, then the fold over the batches after it. */
  lemma FoldNext<S, T>(step: (S, seq<T>, nat) -> S, s: S, xs: seq<T>, i: nat, size: nat)
    requires size > 0 && i < |xs|
    ensures Fold(step, s, Batches(xs[i..], size), i)
         == Fold(step, step(s, xs[i..Min(i + size, |xs|)], i),
                 Batches(xs[Min(i + size, |xs|)..], size), Min(i + size, |xs|))
  {
    var bs := Batches(xs[i..], size);
    BatchesUnfold(xs, i, size);
    assert bs[0] == xs[i..Min(i + size, |xs|)];
    assert bs[1..] == Batches(xs[Min(i + size, |xs|)..], size);
  }
}

=== FILE: cleaned.dfy ===
/** import_cleaned_books.py: a single-attempt importer with random point identifiers, batches run
    in parallel, per-batch success/error accounting and run totals summed in completion order. */
module Cleaned {
  import opened Wrappers
  import opened Batching
  import opened Embedding
  import opened Records

  const BatchSize: nat := 10

  /** An element of the loaded JSON list: an object, or any other JSON value. Indexing a non-object
      raises, and so does `.get` in the handler that catches it, so one such entry crashes its
      whole batch. */
  datatype Entry = Object(book: RawBook) | NonObject

  /** `get_embedding`: one request; the `embedding` list of a 200 reply, and `[]` on any other
      status, on an exception or when the key is absent. */
  function GetEmbedding(reply: Reply): (v: Vector)
    ensures |v| > 0 <==> reply.Reply? && reply.status == 200 && reply.embedding.Some? && |reply.embedding.value| > 0
    ensures |v| > 0 ==> Some(v) == reply.embedding
  {
    if reply.Reply? && reply.status == 200 then reply.embedding.GetOr([]) else []
  }

  /** `upsert_to_collection`: any 200 reply is a success; the body is not read. */
  function UpsertToCollection(reply: StoreReply): bool
  {
    reply.StoreReply? && reply.status == 200
  }

  /** Only the status decides: a 200 reply succeeds whatever its body says, so every reply the
      other importers accept is accepted here, and some they reject are too. */
  lemma UpsertToCollectionIgnoresBody(status: int, body: Option<string>)
    ensures UpsertToCollection(StoreReply(status, body)) == UpsertToCollection(StoreReply(status, None))
    ensures Acknowledged(StoreReply(status, body)) ==> UpsertToCollection(StoreReply(status, body))
    ensures UpsertToCollection(StoreReply(200, Some("error"))) && !Acknowledged(StoreReply(200, Some("error")))
  {
  }

  /** `get_embedding` is the retry loop cut to a single attempt: a non-empty vector is exactly
      what that attempt returns, a failed attempt gives `[]`, and a delivered vector is passed
      on unchanged. */
  lemma GetEmbeddingIsOneAttempt(svc: Service, n: nat, text: string)
    ensures Retry(svc, n, text, 1).tries == 1
    ensures |GetEmbedding(svc(n, text))| > 0 ==> Retry(svc, n, text, 1).vector == Some(GetEmbedding(svc(n, text)))
    ensures Retry(svc, n, text, 1).vector.None? ==> GetEmbedding(svc(n, text)) == []
    ensures Retry(svc, n, text, 1).vector.Some? ==> GetEmbedding(svc(n, text)) == Retry(svc, n, text, 1).vector.value
  {
  }

  /** Every key the record's points are built from, apart from `cover_url`, is present. */
  predicate Complete(b: RawBook)
  {
    b.bookId.Some? && b.tags.Some? && b.description.Some? && b.title.Some? && b.author.Some? && b.language.Some?
  }

  /** The tag point's payload: the random identifier as `book_id`, the file's `book_id` as
      `original_id`, and the record's metadata. */
  function TagsPayload(id: string, b: RawBook): (p: Payload)
    requires Complete(b)
  {
    [ Field("book_id", Str(id)),
      Field("original_id", Str(b.bookId.value)),
      Field("title", Str(b.title.value)),
      Field("author", Str(b.author.value)),
      Field("description", Str(b.description.value)),
      Field("tags", Strs(b.tags.value)),
      Field("language", Str(b.language.value)),
      Field("cover_url", Str(b.coverUrl.GetOr(""))),
      Field("type", Str(BookType)) ]
  }

  /** The description point's payload: identifiers, the description and the type discriminator. */
  function DescriptionPayload(id: string, b: RawBook): (p: Payload)
    requires Complete(b)
  {
    [ Field("book_id", Str(id)),
      Field("original_id", Str(b.bookId.value)),
      Field("description", Str(b.description.value)),
      Field("type", Str(DescType)) ]
  }

  /** A record's two points: one identifier, which is also each payload's `book_id`, and the
      file's `book_id` kept as each payload's `original_id`. */
  predicate SharesIdentity(t: Point, d: Point, id: string, originalId: string)
  {
    && t.id == id && d.id == id
    && |t.payload| >= 2 && |d.payload| >= 2
    && t.payload[0] == Field("book_id", Str(id)) && d.payload[0] == Field("book_id", Str(id))
    && t.payload[1] == Field("original_id", Str(originalId)) && d.payload[1] == t.payload[1]
  }

  /** What one batch of `process_book_batch` sees from the outside: `embed(n, text)` is the
      embedding service's reply to the batch's n-th embedding request, `uuid(k)` is the `uuid4()`
      value drawn for the batch's k-th object, and `tagsReply` and `descReply` are the replies to
      the batch's tag and description upserts. */
  datatype BatchEnv = BatchEnv(embed: Service, uuid: nat -> string, tagsReply: StoreReply, descReply: StoreReply)

  datatype RecordStep = RecordStep(outcome: BookOutcome, sent: nat)

  /** One turn of the loop of `process_book_batch` for an object, the `uuid4()` value given: keys
      are read in the order the code reads them, and a missing key, an empty tag vector or an
      empty description vector makes the record an error. */
  function ProcessRecord(embed: Service, sent: nat, id: string, b: RawBook): (r: RecordStep)
    ensures sent <= r.sent <= sent + 2
    ensures r.outcome.Built? <==>
              && Complete(b)
              && |GetEmbedding(embed(sent, CategoryText(b.tags.value)))| > 0
              && |GetEmbedding(embed(sent + 1, b.description.value))| > 0
    ensures b.bookId.None? || b.tags.None? ==> r.sent == sent
    ensures b.bookId.Some? && b.tags.Some? && |GetEmbedding(embed(sent, CategoryText(b.tags.value)))| == 0
            ==> r.outcome.Skipped? && r.sent == sent + 1
    ensures r.outcome.Built? ==>
              && r.sent == sent + 2
              && SharesIdentity(r.outcome.tagsPoint, r.outcome.descPoint, id, b.bookId.value)
              && r.outcome.tagsPoint.payload == TagsPayload(id, b)
              && r.outcome.descPoint.payload == DescriptionPayload(id, b)
              && Some(r.outcome.tagsPoint.vector) == embed(sent, CategoryText(b.tags.value)).embedding
              && Some(r.outcome.descPoint.vector) == embed(sent + 1, b.description.value).embedding
  {
    if b.bookId.None? || b.tags.None? then RecordStep(Skipped, sent)
    else
      var tagsVector := GetEmbedding(embed(sent, CategoryText(b.tags.value)));
      if |tagsVector| == 0 || b.description.None? then RecordStep(Skipped, sent + 1)
      else
        var descVector := GetEmbedding(embed(sent + 1, b.description.value));
        if |descVector| == 0 || b.title.None? || b.author.None? || b.language.None? then RecordStep(Skipped, sent + 2)
        else RecordStep(Built(Point(id, tagsVector, TagsPayload(id, b)),
                              Point(id, descVector, DescriptionPayload(id, b))), sent + 2)
  }

  /** The points and counters the loop of `process_book_batch` accumulates, or the crash a
      non-object entry causes. */
  datatype Collected = Collected(tagsPoints: seq<Point>, descPoints: seq<Point>, success: nat, error: nat) | Crash

  /** The loop of `process_book_batch` over the entries from position `k` of the batch on. */
  function CollectPoints(env: BatchEnv, sent: nat, entries: seq<Entry>, k: nat): (r: Collected)
    ensures r.Crash? <==> NonObject in entries
    ensures r.Collected? ==> && r.success + r.error == |entries|
                             && |r.tagsPoints| == |r.descPoints| == r.success
                             && forall j :: 0 <= j < r.success ==> r.tagsPoints[j].id == r.descPoints[j].id
    decreases |entries|
  {
    if |entries| == 0 then Collected([], [], 0, 0)
    else match entries[0]
      case NonObject => Crash
      case Object(b) =>
        var one := ProcessRecord(env.embed, sent, env.uuid(k), b);
        var rest := CollectPoints(env, one.sent, entries[1..], k + 1);
        assert entries == [entries[0]] + entries[1..];
        if rest.Crash? then Crash
        else match one.outcome
          case Built(t, d) => Collected([t] + rest.tagsPoints, [d] + rest.descPoints, rest.success + 1, rest.error)
          case Skipped => rest.(error := rest.error + 1)
  }

  /** A batch of objects that all carry every key, against a service whose every reply is a
      non-empty vector, is collected without a single error. */
  lemma {:induction false} CollectPointsAllSucceed(env: BatchEnv, sent: nat, entries: seq<Entry>, k: nat)
    requires forall j :: 0 <= j < |entries| ==> entries[j].Object? && Complete(entries[j].book)
    requires forall n, text :: GetEmbedding(env.embed(n, text)) != []
    ensures CollectPoints(env, sent, entries, k).Collected?
    ensures CollectPoints(env, sent, entries, k).error == 0
    ensures CollectPoints(env, sent, entries, k).success == |entries|
    decreases |entries|
  {
    if |entries| > 0 {
      var b := entries[0].book;
      var one := ProcessRecord(env.embed, sent, env.uuid(k), b);
      assert |GetEmbedding(env.embed(sent, CategoryText(b.tags.value)))| > 0;
      assert |GetEmbedding(env.embed(sent + 1, b.description.value))| > 0;
      assert one.outcome.Built?;
      CollectPointsAllSucceed(env, one.sent, entries[1..], k + 1);
    }
  }

  /** A service whose single attempt returns a vector for every text except those in `bad`. */
  ghost predicate ReturnsVectorExcept(embed: Service, bad: set<string>)
  {
    forall n, text :: |GetEmbedding(embed(n, text))| > 0 <==> text !in bad
  }

  /** A complete record neither of whose two texts is refused. */
  predicate Storable(b: RawBook, bad: set<string>)
  {
    Complete(b) && CategoryText(b.tags.value) !in bad && b.description.value !in bad
  }

  /** The tag payloads of the storable objects, the entry at position `k` first, in order: the
      reference for what a batch collects when the texts in `bad` are refused. */
  function StoredPayloads(env: BatchEnv, entries: seq<Entry>, k: nat, bad: set<string>): (ps: seq<Payload>)
    ensures |ps| <= |entries|
    decreases |entries|
  {
    if |entries| == 0 then []
    else
      (match entries[0]
       case Object(b) => if Storable(b, bad) then [TagsPayload(env.uuid(k), b)] else []
       case NonObject => [])
      + StoredPayloads(env, entries[1..], k + 1, bad)
  }

  /** The `except` of the loop isolates each record: against a service that refuses exactly the
      texts in `bad`, a batch of objects collects precisely the storable records, in order, and
      counts every other record as an error. */
  lemma {:induction false} CollectPointsIsolatesFailures(env: BatchEnv, sent: nat, entries: seq<Entry>, k: nat, bad: set<string>)
    requires ReturnsVectorExcept(env.embed, bad)
    requires NonObject !in entries
    ensures CollectPoints(env, sent, entries, k).Collected?
    ensures Payloads(CollectPoints(env, sent, entries, k).tagsPoints) == StoredPayloads(env, entries, k, bad)
    ensures CollectPoints(env, sent, entries, k).success == |StoredPayloads(env, entries, k, bad)|
    decreases |entries|
  {
    if |entries| > 0 {
      assert entries == [entries[0]] + entries[1..];
      var b := entries[0].book;
      var one := ProcessRecord(env.embed, sent, env.uuid(k), b);
      assert one.outcome.Built? <==> Storable(b, bad);
      CollectPointsIsolatesFailures(env, one.sent, entries[1..], k + 1, bad);
      var rest := CollectPoints(env, one.sent, entries[1..], k + 1);
      var stored := StoredPayloads(env, entries[1..], k + 1, bad);
      match one.outcome
      case Built(t, d) =>
        assert ([t] + rest.tagsPoints)[1..] == rest.tagsPoints;
        assert StoredPayloads(env, entries, k, bad) == [TagsPayload(env.uuid(k), b)] + stored;
      case Skipped =>
        assert StoredPayloads(env, entries, k, bad) == stored;
    }
  }

  /** When exactly the object at position j is not storable, one record is left out. */
  lemma {:induction false} StoredPayloadsWithoutOne(env: BatchEnv, entries: seq<Entry>, k: nat, bad: set<string>, j: nat)
    requires j < |entries|
    requires forall i :: 0 <= i < |entries| ==> entries[i].Object? && (Storable(entries[i].book, bad) <==> i != j)
    ensures |StoredPayloads(env, entries, k, bad)| == |entries| - 1
    decreases |entries|
  {
    if j == 0 {
      StoredPayloadsAll(env, entries[1..], k + 1, bad);
    } else {
      StoredPayloadsWithoutOne(env, entries[1..], k + 1, bad, j - 1);
    }
  }

  lemma {:induction false} StoredPayloadsAll(env: BatchEnv, entries: seq<Entry>, k: nat, bad: set<string>)
    requires forall i :: 0 <= i < |entries| ==> entries[i].Object? && Storable(entries[i].book, bad)
    ensures |StoredPayloads(env, entries, k, bad)| == |entries|
    decreases |entries|
  {
    if |entries| > 0 {
      StoredPayloadsAll(env, entries[1..], k + 1, bad);
    }
  }

  /** One record whose texts are refused costs exactly one error: every other record of the batch
      is still collected. */
  lemma CollectPointsIsolatesOneFailure(env: BatchEnv, entries: seq<Entry>, bad: set<string>, j: nat)
    requires j < |entries|
    requires ReturnsVectorExcept(env.embed, bad)
    requires forall i :: 0 <= i < |entries| ==> entries[i].Object? && (Storable(entries[i].book, bad) <==> i != j)
    ensures CollectPoints(env, 0, entries, 0).Collected?
    ensures CollectPoints(env, 0, entries, 0).success == |entries| - 1
    ensures CollectPoints(env, 0, entries, 0).error == 1
  {
    assert NonObject !in entries by {
      forall i | 0 <= i < |entries| ensures entries[i] != NonObject {
        assert entries[i].Object?;
      }
    }
    CollectPointsIsolatesFailures(env, 0, entries, 0, bad);
    StoredPayloadsWithoutOne(env, entries, 0, bad, j);
  }

  /** What a batch's future yields: the two counters, or an exception. */
  datatype BatchResult = Counted(success: nat, error: nat) | Crashed

  /** The requests `process_book_batch` makes to the store, with the result. */
  datatype BatchRun = BatchRun(result: BatchResult, uploads: seq<Upload>)

  /** `process_book_batch`: collect the points, then upsert to both collections whatever the
      lists hold and whatever the first upsert returned; report the counters when both
      succeeded, and otherwise every record of the batch as an error. */
  function ProcessBookBatch(env: BatchEnv, entries: seq<Entry>): (r: BatchRun)
    ensures r.result.Crashed? <==> NonObject in entries
    ensures r.result.Crashed? ==> r.uploads == []
    ensures r.result.Counted? ==> && r.result.success + r.result.error == |entries|
                                  && |r.uploads| == 2
                                  && r.uploads[0].collection == TagsVecs && r.uploads[1].collection == DescVecs
                                  && r.uploads[0].ids == r.uploads[1].ids
                                  && ((r.uploads[0].ok && r.uploads[1].ok) || r.result.success == 0)
    ensures r.result.Counted? && !(UpsertToCollection(env.tagsReply) && UpsertToCollection(env.descReply))
            ==> r.result == Counted(0, |entries|)
    ensures CollectPoints(env, 0, entries, 0).Collected? && UpsertToCollection(env.tagsReply) && UpsertToCollection(env.descReply)
            ==> r.result == Counted(CollectPoints(env, 0, entries, 0).success, CollectPoints(env, 0, entries, 0).error)
    ensures r.result.Counted? ==> && r.uploads[0].ok == UpsertToCollection(env.tagsReply)
                                  && r.uploads[1].ok == UpsertToCollection(env.descReply)
                                  && r.uploads[0].ids == Ids(CollectPoints(env, 0, entries, 0).tagsPoints)
  {
    var c := CollectPoints(env, 0, entries, 0);
    if c.Crash? then BatchRun(Crashed, [])
    else
      var tagsOk := UpsertToCollection(env.tagsReply);
      var descOk := UpsertToCollection(env.descReply);
      assert Ids(c.tagsPoints) == Ids(c.descPoints);
      var uploads := [Upload(TagsVecs, Ids(c.tagsPoints), tagsOk), Upload(DescVecs, Ids(c.descPoints), descOk)];
      if tagsOk && descOk then BatchRun(Counted(c.success, c.error), uploads)
      else BatchRun(Counted(0, |entries|), uploads)
  }

  /** Unlike the other two importers, the description upsert is not guarded: after a failed tag
      upsert the description points are still sent, so the upsert log breaks `GuardedDualWrites`. */
  lemma DescriptionUpsertIsUnguarded(env: BatchEnv, entries: seq<Entry>)
    requires NonObject !in entries
    requires !UpsertToCollection(env.tagsReply)
    ensures !GuardedDualWrites(ProcessBookBatch(env, entries).uploads)
  {
    var log := ProcessBookBatch(env, entries).uploads;
    assert log[1].collection == DescVecs && !log[0].ok;
    assert !GuardedAt(log, 1);
  }

  /** The run totals. */
  datatype Totals = Totals(success: nat, error: nat) {
    function Plus(other: Totals): Totals {
      Totals(success + other.success, error + other.error)
    }
  }

  /** A completed future: the batch it was submitted with and what it yielded. */
  datatype Completed = Completed(batch: seq<Entry>, result: BatchResult)

  /** The futures of the batches, the batch numbered `first` first, in submission order. */
  function Submit(envs: nat -> BatchEnv, bs: seq<seq<Entry>>, first: nat): (cs: seq<Completed>)
    ensures |cs| == |bs|
    ensures forall j :: 0 <= j < |bs| ==> cs[j].batch == bs[j]
    decreases |bs|
  {
    if |bs| == 0 then []
    else [Completed(bs[0], ProcessBookBatch(envs(first), bs[0]).result)] + Submit(envs, bs[1..], first + 1)
  }

  /** The totals over completed futures, each contributing through `f`. */
  function Sum(cs: seq<Completed>, f: Completed -> Totals): Totals
    decreases |cs|
  {
    if |cs| == 0 then Totals(0, 0) else f(cs[0]).Plus(Sum(cs[1..], f))
  }

  /** What the handler of `main` adds for a future as written: its counters, or `BATCH_SIZE`
      errors when it raised. */
  function ContributionAsWritten(c: Completed): Totals
  {
    match c.result
    case Counted(s, e) => Totals(s, e)
    case Crashed => Totals(0, BatchSize)
  }

  /** The corrected handler: a batch that raised counts each of its records as an error. */
  function Contribution(c: Completed): Totals
  {
    match c.result
    case Counted(s, e) => Totals(s, e)
    case Crashed => Totals(0, |c.batch|)
  }

  /** `main` as written, for the futures completing in submission order. */
  function ImportAsWritten(envs: nat -> BatchEnv, books: seq<Entry>): Totals
  {
    Sum(Submit(envs, Batches(books, BatchSize), 1), ContributionAsWritten)
  }

  /** `main` with the corrected handler. */
  function Import(envs: nat -> BatchEnv, books: seq<Entry>): Totals
  {
    Sum(Submit(envs, Batches(books, BatchSize), 1), Contribution)
  }

  /** `main` from the file read on: a failed read (`None`) returns before any batch is submitted
      and reports no totals; a loaded file runs the corrected import, whose success and error
      totals add up to the number of entries in the file. */
  function ImportFile(envs: nat -> BatchEnv, loaded: Option<seq<Entry>>): (r: Option<Totals>)
    ensures r.None? <==> loaded.None?
    ensures r.Some? ==> r.value.success + r.value.error == |loaded.value|
  {
    match loaded
    case None => None
    case Some(books) =>
      SumCountsEveryRecord(envs, Batches(books, BatchSize), 1);
      BatchesPartition(books, BatchSize);
      Some(Import(envs, books))
  }

  lemma RemoveOne<T>(b: seq<T>, j: nat)
    requires j < |b|
    ensures multiset(b[..j] + b[j + 1..]) == multiset(b) - multiset{b[j]}
  {
    assert b == b[..j] + [b[j]] + b[j + 1..];
    assert multiset(b) == multiset(b[..j]) + multiset{b[j]} + multiset(b[j + 1..]);
  }

  lemma DropFirst<T>(a: seq<T>)
    requires |a| > 0
    ensures multiset(a[1..]) == multiset(a) - multiset{a[0]}
  {
    assert a == [a[0]] + a[1..];
  }

  /** Taking one future out of the middle: its contribution plus the totals of the others. */
  lemma {:induction false} SumRemove(b: seq<Completed>, j: nat, f: Completed -> Totals)
    requires j < |b|
    ensures Sum(b, f) == f(b[j]).Plus(Sum(b[..j] + b[j + 1..], f))
    decreases j
  {
    if j == 0 {
      assert b[..0] + b[1..] == b[1..];
    } else {
      var rest := b[1..][..j - 1] + b[1..][j..];
      SumRemove(b[1..], j - 1, f);
      var others := b[..j] + b[j + 1..];
      assert others == [b[0]] + rest;
      assert others[0] == b[0] && others[1..] == rest;
      var s0, sr, fx := f(b[0]), Sum(rest, f), f(b[j]);
      assert Sum(b, f) == s0.Plus(fx.Plus(sr));
      assert Sum(others, f) == s0.Plus(sr);
    }
  }

  /** `as_completed` yields the futures in any order: the totals do not depend on it. */
  lemma {:induction false} SumPermutation(a: seq<Completed>, b: seq<Completed>, f: Completed -> Totals)
    requires multiset(a) == multiset(b)
    ensures Sum(a, f) == Sum(b, f)
    decreases |a|
  {
    if |a| == 0 {
      assert |b| == |multiset(b)| == 0;
    } else {
      assert a[0] in multiset(b);
      var j :| 0 <= j < |b| && b[j] == a[0];
      RemoveOne(b, j);
      DropFirst(a);
      SumPermutation(a[1..], b[..j] + b[j + 1..], f);
      SumRemove(b, j, f);
    }
  }

  /** With the corrected handler every record of every batch is counted exactly once. */
  lemma {:induction false} SumCountsEveryRecord(envs: nat -> BatchEnv, bs: seq<seq<Entry>>, first: nat)
    ensures Sum(Submit(envs, bs, first), Contribution).success + Sum(Submit(envs, bs, first), Contribution).error
            == |Flatten(bs)|
    decreases |bs|
  {
    if |bs| > 0 {
      SumCountsEveryRecord(envs, bs[1..], first + 1);
      assert Submit(envs, bs, first)[1..] == Submit(envs, bs[1..], first + 1);
    }
  }

  /** Corrected `main`: success and error totals add up to the number of entries in the file,
      whichever order the batches complete in. */
  lemma ImportCountsEveryRecord(envs: nat -> BatchEnv, books: seq<Entry>, completion: seq<Completed>)
    requires multiset(completion) == multiset(Submit(envs, Batches(books, BatchSize), 1))
    ensures Sum(completion, Contribution) == Import(envs, books)
    ensures Import(envs, books).success + Import(envs, books).error == |books|
  {
    SumPermutation(completion, Submit(envs, Batches(books, BatchSize), 1), Contribution);
    SumCountsEveryRecord(envs, Batches(books, BatchSize), 1);
    BatchesPartition(books, BatchSize);
  }

  /** As written, a file holding one non-object entry reports ten errors for one record. */
  lemma ImportAsWrittenOvercounts(envs: nat -> BatchEnv)
    ensures ImportAsWritten(envs, [NonObject]) == Totals(0, 10)
    ensures Import(envs, [NonObject]) == Totals(0, 1)
  {
    var books := [NonObject];
    assert books[..Min(BatchSize, |books|)] == books;
    assert books[Min(BatchSize, |books|)..] == [];
    assert Batches(books, BatchSize) == [books];
    assert NonObject in books;
    assert ProcessBookBatch(envs(1), books).result == Crashed;
    var bs: seq<seq<Entry>> := [books];
    assert bs[1..] == [];
    var cs := Submit(envs, bs, 1);
    assert cs == [Completed(books, Crashed)];
    assert cs[1..] == [];
    assert Sum(cs, ContributionAsWritten) == ContributionAsWritten(cs[0]).Plus(Totals(0, 0));
    assert Sum(cs, Contribution) == Contribution(cs[0]).Plus(Totals(0, 0));
  }
}

=== FILE: cleaned1000.dfy ===
/** import_cleaned_books_1000.py: the same two-collection import as the enhanced importer, with a
    `get_embedding` that raises after its last attempt, an upsert that is only guarded by the
    caller, and run counters that count built records rather than batch sizes. */
module Cleaned1000 {
  import opened Wrappers
  import opened Batching
  import opened Identity
  import opened Embedding
  import opened Records

  const BatchSize: nat := 10
  const MaxRetries: nat := 3

  /** The collaborators: MD5, the embedding service and the store's replies to upserts. */
  datatype Env = Env(md5: string -> Digest, embed: Service, store: StoreService)

  /** What `get_embedding` comes to: the returned vector, or None for the exception raised after
      the last attempt; and the number of embedding requests sent so far in the run. */
  datatype Fetched = Fetched(vector: Option<Vector>, sent: nat)

  /** `get_embedding`: three attempts with a pause between two of them; the first delivering
      reply's embedding is returned, and after three failures it raises. */
  function GetEmbedding(svc: Service, sent: nat, text: string): (r: Fetched)
    ensures sent < r.sent <= sent + MaxRetries
    ensures r.vector.Some? ==> svc(r.sent - 1, text) == Reply(200, r.vector)
    ensures r.vector.None? ==> r.sent == sent + MaxRetries
    ensures forall n :: sent <= n < r.sent && (r.vector.None? || n < r.sent - 1) ==> !DeliversAt(svc, n, text)
  {
    var a := Retry(svc, sent, text, MaxRetries);
    Fetched(a.vector, sent + a.tries)
  }

  datatype RecordStep = RecordStep(outcome: BookOutcome, sent: nat)

  /** The body of the `try` in `process_books_batch` for the record at position `index` of the
      file: tag embedding, description embedding, then the two points; a raised embedding lands
      in the `except` and skips the record. */
  function BuildRecord(env: Env, sent: nat, book: RawBook, index: nat): (r: RecordStep)
    ensures sent < r.sent
    ensures r.outcome.Built? ==>
              && r.outcome.tagsPoint.id == PointId(env.md5, BookKey(book, index))
              && Paired(r.outcome.tagsPoint, r.outcome.descPoint)
              && r.outcome.tagsPoint.payload == BookPayload(book, index)
              && r.outcome.descPoint.payload == DescPayload(BookKey(book, index))
              && env.embed(r.sent - 1, book.description.GetOr("")) == Reply(200, Some(r.outcome.descPoint.vector))
  {
    var key := BookKey(book, index);
    var tags := GetEmbedding(env.embed, sent, BookTagText(book));
    if tags.vector.None? then RecordStep(Skipped, tags.sent)
    else
      var desc := GetEmbedding(env.embed, tags.sent, book.description.GetOr(""));
      if desc.vector.None? then RecordStep(Skipped, desc.sent)
      else
        var id := PointId(env.md5, key);
        RecordStep(Built(Point(id, tags.vector.value, BookPayload(book, index)),
                         Point(id, desc.vector.value, DescPayload(key))), desc.sent)
  }

  /** A built record's tag point carries the embedding of the first reply that delivered one for
      the record's tag text, among the three requests of its `get_embedding` call. */
  lemma BuildRecordUsesTagEmbedding(env: Env, sent: nat, book: RawBook, index: nat)
    ensures BuildRecord(env, sent, book, index).outcome.Built? ==>
              FirstDelivered(env.embed, sent, BookTagText(book), MaxRetries,
                             BuildRecord(env, sent, book, index).outcome.tagsPoint.vector)
  {
    var tags := GetEmbedding(env.embed, sent, BookTagText(book));
    if tags.vector.Some? {
      assert FirstDelivery(env.embed, sent, BookTagText(book), MaxRetries, tags.sent - 1);
    }
  }

  /** A tag embedding that raises skips the record after exactly three requests, none of them for
      the description. */
  lemma BuildRecordSkipsAfterTagFailure(env: Env, sent: nat, book: RawBook, index: nat)
    requires forall n :: sent <= n < sent + MaxRetries ==> !DeliversAt(env.embed, n, BookTagText(book))
    ensures BuildRecord(env, sent, book, index).outcome.Skipped?
    ensures BuildRecord(env, sent, book, index).sent == sent + MaxRetries
  {
    RetryGivesUpAfterMax(env.embed, sent, BookTagText(book), MaxRetries);
  }

  /** The tag embedding first delivered on request `n` and the description embedding first
      delivered on request `m` of the attempts after it: the record is built from those two
      replies. */
  lemma BuildRecordBuildsWhenDelivered(env: Env, sent: nat, book: RawBook, index: nat, n: nat, m: nat)
    requires FirstDelivery(env.embed, sent, BookTagText(book), MaxRetries, n)
    requires FirstDelivery(env.embed, n + 1, book.description.GetOr(""), MaxRetries, m)
    ensures BuildRecord(env, sent, book, index).outcome.Built?
    ensures Some(BuildRecord(env, sent, book, index).outcome.tagsPoint.vector) == env.embed(n, BookTagText(book)).embedding
    ensures Some(BuildRecord(env, sent, book, index).outcome.descPoint.vector) == env.embed(m, book.description.GetOr("")).embedding
    ensures BuildRecord(env, sent, book, index).sent == m + 1
  {
    RetryReturnsFirstDelivery(env.embed, sent, BookTagText(book), MaxRetries, n);
    RetryReturnsFirstDelivery(env.embed, n + 1, book.description.GetOr(""), MaxRetries, m);
  }

  datatype Batch = Batch(tagsPoints: seq<Point>, descPoints: seq<Point>, successfulCount: nat, sent: nat)

  /** `process_books_batch` over the records at file positions `start`, `start + 1`, ...: built
      records are appended to both lists in input order, skipped ones leave no trace. */
  function ProcessBooksBatch(env: Env, sent: nat, books: seq<RawBook>, start: nat): (r: Batch)
    ensures |r.tagsPoints| == |r.descPoints| == r.successfulCount <= |books|
    ensures forall k :: 0 <= k < r.successfulCount ==> Paired(r.tagsPoints[k], r.descPoints[k])
    ensures sent + |books| <= r.sent
    decreases |books|
  {
    if |books| == 0 then Batch([], [], 0, sent)
    else
      var one := BuildRecord(env, sent, books[0], start);
      var rest := ProcessBooksBatch(env, one.sent, books[1..], start + 1);
      match one.outcome
      case Built(t, d) =>
        Batch([t] + rest.tagsPoints, [d] + rest.descPoints, rest.successfulCount + 1, rest.sent)
      case Skipped => rest
  }

  /** The tag points of a batch carry the payloads of the built records, in input order. */
  lemma {:induction false} ProcessBooksBatchKeepsOrder(env: Env, sent: nat, books: seq<RawBook>, start: nat)
    ensures IsSubsequence(Payloads(ProcessBooksBatch(env, sent, books, start).tagsPoints), ExpectedPayloads(books, start))
    decreases |books|
  {
    if |books| > 0 {
      var one := BuildRecord(env, sent, books[0], start);
      ProcessBooksBatchKeepsOrder(env, one.sent, books[1..], start + 1);
      var rest := ProcessBooksBatch(env, one.sent, books[1..], start + 1);
      match one.outcome
      case Built(t, d) =>
        assert ([t] + rest.tagsPoints)[1..] == rest.tagsPoints;
      case Skipped =>
        SubsequenceOfTail(Payloads(rest.tagsPoints), ExpectedPayloads(books, start));
    }
  }

  /** A batch whose every embedding is delivered keeps every record, with the payloads it expects,
      in input order, after exactly two requests per record. */
  lemma {:induction false} ProcessBooksBatchKeepsEveryBookWhenDelivered(env: Env, sent: nat, books: seq<RawBook>, start: nat)
    requires forall n, text :: Delivers(env.embed(n, text))
    ensures ProcessBooksBatch(env, sent, books, start).successfulCount == |books|
    ensures Payloads(ProcessBooksBatch(env, sent, books, start).tagsPoints) == ExpectedPayloads(books, start)
    ensures ProcessBooksBatch(env, sent, books, start).sent == sent + 2 * |books|
    decreases |books|
  {
    if |books| > 0 {
      var one := BuildRecord(env, sent, books[0], start);
      assert one.outcome.Built? && one.sent == sent + 2;
      ProcessBooksBatchKeepsEveryBookWhenDelivered(env, one.sent, books[1..], start + 1);
      var rest := ProcessBooksBatch(env, one.sent, books[1..], start + 1);
      assert ([one.outcome.tagsPoint] + rest.tagsPoints)[1..] == rest.tagsPoints;
    }
  }

  /** Against a service that refuses exactly the texts in `bad`, a record is built exactly when
      neither of its own two texts is refused. */
  lemma BuildRecordUnderRefusals(env: Env, sent: nat, book: RawBook, index: nat, bad: set<string>)
    requires RefusesExactly(env.embed, bad)
    ensures BuildRecord(env, sent, book, index).outcome.Built? <==> Embeddable(book, bad)
  {
    var t := GetEmbedding(env.embed, sent, BookTagText(book));
    assert Delivers(env.embed(sent, BookTagText(book))) <==> BookTagText(book) !in bad;
    if t.vector.Some? {
      assert Delivers(env.embed(t.sent, book.description.GetOr(""))) <==> book.description.GetOr("") !in bad;
    }
  }

  /** The `except` of the loop isolates each record: against a service that refuses exactly the
      texts in `bad`, the batch keeps precisely the records whose own texts are not refused, in
      input order. */
  lemma {:induction false} ProcessBooksBatchIsolatesFailures(env: Env, sent: nat, books: seq<RawBook>, start: nat, bad: set<string>)
    requires RefusesExactly(env.embed, bad)
    ensures Payloads(ProcessBooksBatch(env, sent, books, start).tagsPoints) == KeptPayloads(books, start, bad)
    ensures ProcessBooksBatch(env, sent, books, start).successfulCount == |KeptPayloads(books, start, bad)|
    decreases |books|
  {
    if |books| > 0 {
      var one := BuildRecord(env, sent, books[0], start);
      BuildRecordUnderRefusals(env, sent, books[0], start, bad);
      ProcessBooksBatchIsolatesFailures(env, one.sent, books[1..], start + 1, bad);
      var rest := ProcessBooksBatch(env, one.sent, books[1..], start + 1);
      var kept := KeptPayloads(books[1..], start + 1, bad);
      match one.outcome
      case Built(t, d) =>
        assert ([t] + rest.tagsPoints)[1..] == rest.tagsPoints;
        assert KeptPayloads(books, start, bad) == [BookPayload(books[0], start)] + kept;
      case Skipped =>
        assert KeptPayloads(books, start, bad) == kept;
    }
  }

  /** One record whose tag text alone is refused, a text no other record uses: the batch keeps
      every other record, in order. */
  lemma ProcessBooksBatchDropsOnlyTheRefusedRecord(env: Env, sent: nat, books: seq<RawBook>, start: nat, j: nat)
    requires j < |books|
    requires RefusesExactly(env.embed, {BookTagText(books[j])})
    requires forall i :: 0 <= i < |books| && i != j ==> Embeddable(books[i], {BookTagText(books[j])})
    ensures ProcessBooksBatch(env, sent, books, start).successfulCount == |books| - 1
    ensures Payloads(ProcessBooksBatch(env, sent, books, start).tagsPoints)
            == ExpectedPayloads(books, start)[..j] + ExpectedPayloads(books, start)[j + 1..]
  {
    var bad := {BookTagText(books[j])};
    assert !Embeddable(books[j], bad);
    KeptPayloadsWithoutOne(books, start, bad, j);
    ProcessBooksBatchIsolatesFailures(env, sent, books, start, bad);
  }

  /** `upsert_to_qdrant`: one request whatever the list holds, successful exactly when the store
      answers 200 with `"status": "ok"`. */
  function UpsertToQdrant(points: seq<Point>, reply: StoreReply): bool
  {
    Acknowledged(reply)
  }

  /** An empty list is sent like any other: whatever the reply, its upsert succeeds exactly as a
      non-empty one would, so it fails on an exception, on any status but 200 and on a body that
      does not say `"status": "ok"`. */
  lemma EmptyUpsertIsSent(points: seq<Point>, reply: StoreReply)
    ensures UpsertToQdrant([], reply) == UpsertToQdrant(points, reply)
    ensures reply.StoreRaised? || reply.status != 200 || reply.bodyStatus != Some("ok") ==> !UpsertToQdrant([], reply)
  {
  }

  /** The run counters of `main`, the embedding requests sent and the upsert requests made. */
  datatype Totals = Totals(processed: nat, uploaded: nat, sent: nat, uploads: seq<Upload>)

  /** The result of one turn: the new totals, the records built and whether both upserts succeeded. */
  datatype Turn = Turn(totals: Totals, built: nat, uploaded: bool)

  /** One turn of the loop in `main`: `total_processed` grows by the built count before any
      upload; the upserts happen only when both lists are non-empty, the description upsert only
      after the tag upsert succeeded, and `total_uploaded` grows by the built count only after
      both succeeded. */
  function BatchTurn(env: Env, totals: Totals, batch: seq<RawBook>, start: nat): (r: Turn)
    ensures GuardedDualWrites(totals.uploads) ==> GuardedDualWrites(r.totals.uploads)
    ensures r.built <= |batch|
    ensures r.built == ProcessBooksBatch(env, totals.sent, batch, start).successfulCount
    ensures r.totals.processed == totals.processed + r.built
    ensures r.totals.uploaded == totals.uploaded + (if r.uploaded then r.built else 0)
    ensures r.built == 0 ==> r.totals.uploads == totals.uploads
    ensures r.uploaded ==> && r.built > 0
                           && |r.totals.uploads| == |totals.uploads| + 2
                           && r.totals.uploads[|totals.uploads|].collection == TagsVecs
                           && r.totals.uploads[|totals.uploads| + 1].collection == DescVecs
                           && r.totals.uploads[|totals.uploads|].ok && r.totals.uploads[|totals.uploads| + 1].ok
    ensures |totals.uploads| <= |r.totals.uploads| <= |totals.uploads| + 2
    ensures r.totals.uploads[..|totals.uploads|] == totals.uploads
    ensures r.uploaded <==> && r.built > 0
                            && Acknowledged(env.store(|totals.uploads|))
                            && Acknowledged(env.store(|totals.uploads| + 1))
    ensures r.built > 0 ==> && |r.totals.uploads| > |totals.uploads|
                            && r.totals.uploads[|totals.uploads|].collection == TagsVecs
                            && r.totals.uploads[|totals.uploads|].ok == Acknowledged(env.store(|totals.uploads|))
    ensures r.built > 0 && Acknowledged(env.store(|totals.uploads|)) ==>
              && |r.totals.uploads| == |totals.uploads| + 2
              && r.totals.uploads[|totals.uploads| + 1].ok == Acknowledged(env.store(|totals.uploads| + 1))
  {
    var b := ProcessBooksBatch(env, totals.sent, batch, start);
    var counted := totals.(processed := totals.processed + b.successfulCount, sent := b.sent);
    if |b.tagsPoints| == 0 || |b.descPoints| == 0 then Turn(counted, b.successfulCount, false)
    else
      var n := |totals.uploads|;
      var tagsOk := UpsertToQdrant(b.tagsPoints, env.store(n));
      var tagsUpload := Upload(TagsVecs, Ids(b.tagsPoints), tagsOk);
      if !tagsOk then
        GuardedDualWritesAppend(totals.uploads, [tagsUpload]);
        Turn(counted.(uploads := totals.uploads + [tagsUpload]), b.successfulCount, false)
      else
        var descOk := UpsertToQdrant(b.descPoints, env.store(n + 1));
        var descUpload := Upload(DescVecs, Ids(b.descPoints), descOk);
        assert Ids(b.tagsPoints) == Ids(b.descPoints);
        GuardedDualWritesAppend(totals.uploads, [tagsUpload, descUpload]);
        var logged := counted.(uploads := totals.uploads + [tagsUpload, descUpload]);
        if !descOk then Turn(logged, b.successfulCount, false)
        else Turn(logged.(uploaded := logged.uploaded + |b.tagsPoints|), b.successfulCount, true)
  }

  /** A batch whose every embedding is delivered and whose two upserts are acknowledged is
      uploaded whole: every record counts as processed and as uploaded. */
  lemma BatchTurnUploadsWhenAllSucceed(env: Env, totals: Totals, batch: seq<RawBook>, start: nat)
    requires |batch| > 0
    requires forall n, text :: Delivers(env.embed(n, text))
    requires Acknowledged(env.store(|totals.uploads|)) && Acknowledged(env.store(|totals.uploads| + 1))
    ensures BatchTurn(env, totals, batch, start).uploaded
    ensures BatchTurn(env, totals, batch, start).totals.processed == totals.processed + |batch|
    ensures BatchTurn(env, totals, batch, start).totals.uploaded == totals.uploaded + |batch|
  {
    ProcessBooksBatchKeepsEveryBookWhenDelivered(env, totals.sent, batch, start);
  }

  /** The totals the loop of `main` carries on with after one turn: the upsert log stays
      guarded, and `total_uploaded` grows by no more than `total_processed`, which grows by no
      more than the batch. */
  function AfterBatch(env: Env, totals: Totals, batch: seq<RawBook>, start: nat): (next: Totals)
    ensures GuardedDualWrites(totals.uploads) ==> GuardedDualWrites(next.uploads)
    ensures next.uploaded - totals.uploaded <= next.processed - totals.processed <= |batch|
  {
    BatchTurn(env, totals, batch, start).totals
  }

  /** The same for the totals the loop carries on with, against reliable services. */
  lemma AfterBatchUploadsWhenAllSucceed(env: Env, totals: Totals, batch: seq<RawBook>, start: nat)
    requires |batch| > 0
    requires Reliable(env.embed, env.store)
    ensures AfterBatch(env, totals, batch, start).processed == totals.processed + |batch|
    ensures AfterBatch(env, totals, batch, start).uploaded == totals.uploaded + |batch|
  {
    forall n: nat, text: string
      ensures Delivers(env.embed(n, text))
    {
      assert DeliversAt(env.embed, n, text);
    }
    assert AcknowledgedAt(env.store, |totals.uploads|) && AcknowledgedAt(env.store, |totals.uploads| + 1);
    BatchTurnUploadsWhenAllSucceed(env, totals, batch, start);
  }
}

=== FILE: cleaned1000_main.dfy ===
/** import_cleaned_books_1000.py, `main`: the batch loop over the loaded file as a fold of the
    turns of `process_books_batch` and the two upserts, and the run around it. */
module Cleaned1000Main {
  import opened Wrappers
  import opened Batching
  import opened Records
  import opened Cleaned1000

  /** The totals at the start of `main`. */
  function Start(): Totals
  {
    Totals(0, 0, 0, [])
  }

  /** One turn of the batch loop as a step of the fold. */
  function Step(env: Env): (Totals, seq<RawBook>, nat) -> Totals
  {
    (totals: Totals, batch: seq<RawBook>, start: nat) => AfterBatch(env, totals, batch, start)
  }

  /** The batch loop as a fold: one turn per batch of `bs`, in order, each batch starting at the
      file position that follows the batches before it. */
  function Run(env: Env, totals: Totals, bs: seq<seq<RawBook>>, start: nat): Totals
  {
    Fold(Step(env), totals, bs, start)
  }

  /** One turn of the loop at file position `i`, from totals that account for at most the first
      `i` records: afterwards the totals stay within the first `Min(i + BATCH_SIZE, n)` records
      and the fold over the remaining batches still gives the run's result. When `reliable` holds
      (every embedding delivered, every upsert acknowledged) and the totals count the first `i`
      records as processed and uploaded, the next totals count the first
      `Min(i + BATCH_SIZE, n)`. */
  lemma MainStep(env: Env, totals: Totals, books: seq<RawBook>, i: nat, whole: Totals, reliable: bool)
    requires i < |books|
    requires GuardedDualWrites(totals.uploads)
    requires totals.uploaded <= totals.processed <= i
    requires Run(env, totals, Batches(books[i..], BatchSize), i) == whole
    requires reliable ==> Reliable(env.embed, env.store) && totals.processed == totals.uploaded == i
    ensures var next := AfterBatch(env, totals, books[i..Min(i + BatchSize, |books|)], i);
            var done := Min(i + BatchSize, |books|);
            && next.uploaded <= next.processed <= done
            && Run(env, next, Batches(books[done..], BatchSize), done) == whole
            && (reliable ==> next.processed == next.uploaded == done)
  {
    FoldNext(Step(env), totals, books, i, BatchSize);
    if reliable {
      AfterBatchUploadsWhenAllSucceed(env, totals, books[i..Min(i + BatchSize, |books|)], i);
    }
  }

  /** The loop of `main`: `for i in range(0, total_books, BATCH_SIZE)` over the slices
      `books[i:i + BATCH_SIZE]`. Its result is the fold `Run` of the turns over exactly the
      batches that partition the input, and it ends with
      `total_uploaded <= total_processed <= total_books`; when every embedding is delivered and
      every upsert acknowledged, `total_processed == total_uploaded == total_books`. */
  method MainLoop(env: Env, books: seq<RawBook>) returns (totals: Totals, batchNum: nat, ghost visited: seq<seq<RawBook>>)
    ensures visited == Batches(books, BatchSize)
    ensures batchNum == CeilDiv(|books|, BatchSize)
    ensures totals.uploaded <= totals.processed <= |books|
    ensures GuardedDualWrites(totals.uploads)
    ensures totals == Run(env, Start(), Batches(books, BatchSize), 0)
    ensures Reliable(env.embed, env.store) ==> totals.processed == totals.uploaded == |books|
  {
    totals := Start();
    var i := 0;
    batchNum := 0;
    visited := [];
    ghost var done := 0;
    ghost var whole := Run(env, totals, Batches(books, BatchSize), 0);
    ghost var reliable := Reliable(env.embed, env.store);
    assert books[done..] == books;
    while i < |books|
      invariant done == Min(i, |books|)
      invariant GuardedDualWrites(totals.uploads)
      invariant totals.uploaded <= totals.processed <= done
      invariant visited + Batches(books[done..], BatchSize) == Batches(books, BatchSize)
      invariant batchNum == |visited|
      invariant Run(env, totals, Batches(books[done..], BatchSize), done) == whole
      invariant reliable ==> totals.processed == totals.uploaded == done
      decreases |books| - i
    {
      var batch := books[i..Min(i + BatchSize, |books|)];
      BatchesTake(books, i, BatchSize, visited);
      MainStep(env, totals, books, i, whole, reliable);
      visited := visited + [batch];
      batchNum := batchNum + 1;
      totals := AfterBatch(env, totals, batch, i);
      done := Min(i + BatchSize, |books|);
      i := i + BatchSize;
    }
    assert books[done..] == [];
    BatchesPartition(books, BatchSize);
  }

  /** Where `main` stopped before importing anything. */
  datatype Stage = ServiceCheck | Loading

  datatype RunResult = Aborted(stage: Stage) | Finished(totals: Totals)

  /** `main`: check both services, load the file, then run the batch loop. */
  method RunImport(env: Env, servicesOk: bool, loaded: Option<seq<RawBook>>) returns (r: RunResult)
    ensures r.Finished? <==> servicesOk && loaded.Some?
    ensures r.Aborted? ==> r.stage == if !servicesOk then ServiceCheck else Loading
    ensures r.Finished? ==> && r.totals.uploaded <= r.totals.processed <= |loaded.value|
                            && GuardedDualWrites(r.totals.uploads)
                            && r.totals == Run(env, Start(), Batches(loaded.value, BatchSize), 0)
    ensures r.Finished? && Reliable(env.embed, env.store) ==>
              r.totals.processed == r.totals.uploaded == |loaded.value|
  {
    if !servicesOk {
      return Aborted(ServiceCheck);
    }
    if loaded.None? {
      return Aborted(Loading);
    }
    var totals, _, _ := MainLoop(env, loaded.value);
    r := Finished(totals);
  }
}

=== FILE: embedding.dfy ===
/** The embedding service seen as an oracle, and the bounded retry loop around it. */
module Embedding {
  import opened Wrappers

  type Vector = seq<real>

  /** What one request to `/api/embeddings` yields: an HTTP reply whose JSON body may carry an
      `embedding` list (None when the key is absent or the body is not JSON), or an exception
      raised by the transport (refused connection, timeout). */
  datatype Reply = Reply(status: int, embedding: Option<Vector>) | Raised

  /** The reply the service gives to the n-th request of a run, whose prompt is the given text. */
  type Service = (nat, string) -> Reply

  /** A reply from which `response.json()["embedding"]` is returned. */
  predicate Delivers(r: Reply)
  {
    r.Reply? && r.status == 200 && r.embedding.Some?
  }

  /** Request number `n`, for `text`, delivers an embedding. Statements about ranges of requests
      go through this predicate, so that they only apply to the requests a proof names. */
  predicate DeliversAt(svc: Service, n: nat, text: string)
  {
    Delivers(svc(n, text))
  }

  /** The outcome of a retry loop: the vector returned (None after the last failure), how many
      requests were sent and how many one-second pauses were taken. */
  datatype Attempts = Attempts(vector: Option<Vector>, tries: nat, sleeps: nat)

  /** `for attempt in range(max)` from `attempt` on: each failed attempt but the last is followed
      by a pause; a delivering reply ends the loop. Tries and sleeps count from `attempt` on, and
      the attempt numbered `attempt` is request number `sent + attempt`. */
  function RetryFrom(svc: Service, sent: nat, text: string, attempt: nat, max: nat): (r: Attempts)
    requires attempt <= max
    ensures r.tries <= max - attempt
    ensures r.vector.Some? ==> 1 <= r.tries && svc(sent + attempt + r.tries - 1, text) == Reply(200, r.vector)
    ensures r.vector.None? ==> r.tries == max - attempt
    ensures forall n :: sent + attempt <= n < sent + attempt + r.tries && (r.vector.None? || n < sent + attempt + r.tries - 1)
                        ==> !DeliversAt(svc, n, text)
    ensures r.sleeps == if r.tries == 0 then 0 else r.tries - 1
    decreases max - attempt
  {
    if attempt == max then Attempts(None, 0, 0)
    else
      var reply := svc(sent + attempt, text);
      if Delivers(reply) then Attempts(reply.embedding, 1, 0)
      else
        var rest := RetryFrom(svc, sent, text, attempt + 1, max);
        Attempts(rest.vector, rest.tries + 1, rest.sleeps + (if attempt < max - 1 then 1 else 0))
  }

  /** The whole loop: at most `max` requests, numbered from `sent`; the first delivering reply's
      embedding is returned; None only after `max` failures; one pause between two attempts. */
  function Retry(svc: Service, sent: nat, text: string, max: nat): (r: Attempts)
    ensures r.tries <= max
    ensures r.vector.Some? ==> 1 <= r.tries && svc(sent + r.tries - 1, text) == Reply(200, r.vector)
    ensures r.vector.None? ==> r.tries == max
    ensures forall n :: sent <= n < sent + r.tries && (r.vector.None? || n < sent + r.tries - 1)
                        ==> !DeliversAt(svc, n, text)
    ensures r.sleeps == if r.tries == 0 then 0 else r.tries - 1
  {
    RetryFrom(svc, sent, text, 0, max)
  }

  /** Request number `n` is the first among the `max` requests from `from` on to deliver an
      embedding for `text`. */
  predicate FirstDelivery(svc: Service, from: nat, text: string, max: nat, n: nat)
  {
    && from <= n < from + max
    && Delivers(svc(n, text))
    && forall m :: from <= m < n ==> !DeliversAt(svc, m, text)
  }

  /** `v` is the embedding carried by the first reply that delivers one for `text` among the
      `max` requests from `from` on. */
  ghost predicate FirstDelivered(svc: Service, from: nat, text: string, max: nat, v: Vector)
  {
    exists n :: FirstDelivery(svc, from, text, max, n) && svc(n, text).embedding == Some(v)
  }

  /** The loop's result is the first delivering reply among the first `max` requests, and the
      number of requests is its position plus one. */
  lemma RetryReturnsFirstDelivery(svc: Service, sent: nat, text: string, max: nat, n: nat)
    requires FirstDelivery(svc, sent, text, max, n)
    ensures Retry(svc, sent, text, max).vector == svc(n, text).embedding
    ensures Retry(svc, sent, text, max).tries == n - sent + 1
  {
    var r := Retry(svc, sent, text, max);
    assert DeliversAt(svc, n, text);
    if r.vector.Some? {
      assert DeliversAt(svc, sent + r.tries - 1, text);
    }
  }

  /** Against a service that never delivers, exactly `max` requests go out, with `max - 1`
      pauses between them, and the loop gives up. */
  lemma RetryGivesUpAfterMax(svc: Service, sent: nat, text: string, max: nat)
    requires forall m :: sent <= m < sent + max ==> !DeliversAt(svc, m, text)
    ensures Retry(svc, sent, text, max).vector.None?
    ensures Retry(svc, sent, text, max).tries == max
    ensures max > 0 ==> Retry(svc, sent, text, max).sleeps == max - 1
  {
    var r := Retry(svc, sent, text, max);
    if r.vector.Some? {
      assert DeliversAt(svc, sent + r.tries - 1, text);
    }
  }
}

=== FILE: enhanced.dfy ===
/** import_books_enhanced.py: the `BookImporter` class, with the embedding service and the Qdrant
    store as oracles and its `stats` dictionary as an explicit value threaded through the run. */
module Enhanced {
  import opened Wrappers
  import opened Batching
  import opened Identity
  import opened Embedding
  import opened Records

  const MaxRetries: nat := 3
  const DefaultBatchSize: nat := 10

  /** The `stats` dictionary, without `start_time`. */
  datatype Stats = Stats(
    totalBooks: nat,
    processedBooks: nat,
    successfulUploads: nat,
    failedUploads: nat,
    embeddingCalls: nat)

  /** The importer's state: its counters, the number of embedding requests sent so far and the
      upsert requests made so far. */
  datatype Importer = Importer(stats: Stats, sent: nat, uploads: seq<Upload>)

  /** The collaborators: MD5, the embedding service and the store's replies to upserts. */
  datatype Env = Env(md5: string -> Digest, embed: Service, store: StoreService)

  datatype Embedded = Embedded(vector: Option<Vector>, imp: Importer)

  /** `get_embedding`: counts one call, then runs the retry loop with `MAX_RETRIES` attempts. */
  function GetEmbedding(env: Env, imp: Importer, text: string): (r: Embedded)
    ensures r.imp.stats == imp.stats.(embeddingCalls := imp.stats.embeddingCalls + 1)
    ensures r.imp.uploads == imp.uploads
    ensures imp.sent < r.imp.sent <= imp.sent + MaxRetries
    ensures r.vector.Some? ==> env.embed(r.imp.sent - 1, text) == Reply(200, r.vector)
    ensures r.vector.None? ==> r.imp.sent == imp.sent + MaxRetries
    ensures forall n :: imp.sent <= n < r.imp.sent && (r.vector.None? || n < r.imp.sent - 1)
                        ==> !DeliversAt(env.embed, n, text)
  {
    var a := Retry(env.embed, imp.sent, text, MaxRetries);
    Embedded(a.vector, Importer(imp.stats.(embeddingCalls := imp.stats.embeddingCalls + 1),
                                imp.sent + a.tries, imp.uploads))
  }

  /** No attempt among the `MAX_RETRIES` requests from `from` on delivers an embedding for `text`. */
  predicate Unavailable(svc: Service, from: nat, text: string)
  {
    forall n :: from <= n < from + MaxRetries ==> !DeliversAt(svc, n, text)
  }

  datatype BookStep = BookStep(outcome: BookOutcome, imp: Importer)

  /** `process_book`: tag embedding, then description embedding, then the two points. */
  function ProcessBook(env: Env, imp: Importer, book: RawBook, index: nat): (r: BookStep)
    ensures r.imp.uploads == imp.uploads
    ensures r.imp.stats == imp.stats.(embeddingCalls := r.imp.stats.embeddingCalls)
    ensures imp.stats.embeddingCalls < r.imp.stats.embeddingCalls <= imp.stats.embeddingCalls + 2
    ensures imp.sent < r.imp.sent
    ensures r.outcome.Built? ==>
              && r.imp.stats.embeddingCalls == imp.stats.embeddingCalls + 2
              && r.outcome.tagsPoint.id == PointId(env.md5, BookKey(book, index))
              && Paired(r.outcome.tagsPoint, r.outcome.descPoint)
              && r.outcome.tagsPoint.payload == BookPayload(book, index)
              && r.outcome.descPoint.payload == DescPayload(BookKey(book, index))
              && env.embed(r.imp.sent - 1, book.description.GetOr("")) == Reply(200, Some(r.outcome.descPoint.vector))
  {
    var key := BookKey(book, index);
    var description := book.description.GetOr("");
    var tagsText := BookTagText(book);
    var t := GetEmbedding(env, imp, tagsText);
    if t.vector.None? then BookStep(Skipped, t.imp)
    else
      var d := GetEmbedding(env, t.imp, description);
      if d.vector.None? then BookStep(Skipped, d.imp)
      else
        var id := PointId(env.md5, key);
        BookStep(Built(Point(id, t.vector.value, BookPayload(book, index)),
                       Point(id, d.vector.value, DescPayload(key))), d.imp)
  }

  /** A built record's tag point carries the embedding of the first reply that delivered one for
      the record's tag text, among the `MAX_RETRIES` requests of its `get_embedding` call. */
  lemma ProcessBookUsesTagEmbedding(env: Env, imp: Importer, book: RawBook, index: nat)
    ensures ProcessBook(env, imp, book, index).outcome.Built? ==>
              FirstDelivered(env.embed, imp.sent, BookTagText(book), MaxRetries,
                             ProcessBook(env, imp, book, index).outcome.tagsPoint.vector)
  {
    var t := GetEmbedding(env, imp, BookTagText(book));
    if t.vector.Some? {
      assert FirstDelivery(env.embed, imp.sent, BookTagText(book), MaxRetries, t.imp.sent - 1);
    }
  }

  /** A failed tag embedding skips the record: one `get_embedding` call, whose `MAX_RETRIES`
      requests all carried the tag text, and no request for the description embedding. */
  lemma ProcessBookSkipsAfterTagFailure(env: Env, imp: Importer, book: RawBook, index: nat)
    requires Unavailable(env.embed, imp.sent, BookTagText(book))
    ensures ProcessBook(env, imp, book, index).outcome.Skipped?
    ensures ProcessBook(env, imp, book, index).imp.stats.embeddingCalls == imp.stats.embeddingCalls + 1
    ensures ProcessBook(env, imp, book, index).imp.sent == imp.sent + MaxRetries
  {
    RetryGivesUpAfterMax(env.embed, imp.sent, BookTagText(book), MaxRetries);
  }

  /** The tag embedding first delivered on request `n`, within its `MAX_RETRIES` attempts, and
      the description embedding unavailable on the attempts after it: the record is skipped
      after two `get_embedding` calls. */
  lemma ProcessBookSkipsAfterDescriptionFailure(env: Env, imp: Importer, book: RawBook, index: nat, n: nat)
    requires FirstDelivery(env.embed, imp.sent, BookTagText(book), MaxRetries, n)
    requires Unavailable(env.embed, n + 1, book.description.GetOr(""))
    ensures ProcessBook(env, imp, book, index).outcome.Skipped?
    ensures ProcessBook(env, imp, book, index).imp.stats.embeddingCalls == imp.stats.embeddingCalls + 2
    ensures ProcessBook(env, imp, book, index).imp.sent == n + 1 + MaxRetries
  {
    RetryReturnsFirstDelivery(env.embed, imp.sent, BookTagText(book), MaxRetries, n);
    RetryGivesUpAfterMax(env.embed, n + 1, book.description.GetOr(""), MaxRetries);
  }

  /** The tag embedding first delivered on request `n` and the description embedding first
      delivered on request `m` of the attempts after it: the record is built from those two
      replies, and the next request is `m + 1`. */
  lemma ProcessBookBuildsWhenDelivered(env: Env, imp: Importer, book: RawBook, index: nat, n: nat, m: nat)
    requires FirstDelivery(env.embed, imp.sent, BookTagText(book), MaxRetries, n)
    requires FirstDelivery(env.embed, n + 1, book.description.GetOr(""), MaxRetries, m)
    ensures ProcessBook(env, imp, book, index).outcome.Built?
    ensures Some(ProcessBook(env, imp, book, index).outcome.tagsPoint.vector) == env.embed(n, BookTagText(book)).embedding
    ensures Some(ProcessBook(env, imp, book, index).outcome.descPoint.vector) == env.embed(m, book.description.GetOr("")).embedding
    ensures ProcessBook(env, imp, book, index).imp.sent == m + 1
  {
    RetryReturnsFirstDelivery(env.embed, imp.sent, BookTagText(book), MaxRetries, n);
    RetryReturnsFirstDelivery(env.embed, n + 1, book.description.GetOr(""), MaxRetries, m);
  }

  datatype BatchRun = BatchRun(tagsPoints: seq<Point>, descPoints: seq<Point>, successfulCount: nat, imp: Importer)

  /** `process_batch`: records are processed in order; built ones are appended to both lists,
      skipped ones counted in `failed_uploads`. */
  function ProcessBatch(env: Env, imp: Importer, books: seq<RawBook>, start: nat): (r: BatchRun)
    ensures |r.tagsPoints| == |r.descPoints| == r.successfulCount <= |books|
    ensures forall k :: 0 <= k < r.successfulCount ==> Paired(r.tagsPoints[k], r.descPoints[k])
    ensures r.imp.stats.failedUploads == imp.stats.failedUploads + |books| - r.successfulCount
    ensures r.imp.stats.totalBooks == imp.stats.totalBooks
    ensures r.imp.stats.processedBooks == imp.stats.processedBooks
    ensures r.imp.stats.successfulUploads == imp.stats.successfulUploads
    ensures imp.stats.embeddingCalls + |books| + r.successfulCount <= r.imp.stats.embeddingCalls
    ensures r.imp.stats.embeddingCalls <= imp.stats.embeddingCalls + 2 * |books|
    ensures r.imp.uploads == imp.uploads
    decreases |books|
  {
    if |books| == 0 then BatchRun([], [], 0, imp)
    else
      var step := ProcessBook(env, imp, books[0], start);
      match step.outcome
      case Built(t, d) =>
        var rest := ProcessBatch(env, step.imp, books[1..], start + 1);
        BatchRun([t] + rest.tagsPoints, [d] + rest.descPoints, rest.successfulCount + 1, rest.imp)
      case Skipped =>
        var counted := step.imp.(stats := step.imp.stats.(failedUploads := step.imp.stats.failedUploads + 1));
        ProcessBatch(env, counted, books[1..], start + 1)
  }

  /** The tag points of a batch carry the payloads of the built records, in input order: what
      `process_batch` returns is the expected payload list with the skipped records removed. */
  lemma {:induction false} ProcessBatchKeepsOrder(env: Env, imp: Importer, books: seq<RawBook>, start: nat)
    ensures IsSubsequence(Payloads(ProcessBatch(env, imp, books, start).tagsPoints), ExpectedPayloads(books, start))
    decreases |books|
  {
    if |books| > 0 {
      var step := ProcessBook(env, imp, books[0], start);
      match step.outcome
      case Built(t, d) =>
        ProcessBatchKeepsOrder(env, step.imp, books[1..], start + 1);
        var rest := ProcessBatch(env, step.imp, books[1..], start + 1);
        assert ([t] + rest.tagsPoints)[1..] == rest.tagsPoints;
      case Skipped =>
        var counted := step.imp.(stats := step.imp.stats.(failedUploads := step.imp.stats.failedUploads + 1));
        ProcessBatchKeepsOrder(env, counted, books[1..], start + 1);
        var rest := ProcessBatch(env, counted, books[1..], start + 1);
        SubsequenceOfTail(Payloads(rest.tagsPoints), ExpectedPayloads(books, start));
    }
  }

  /** Against a service that delivers every request, no record of a batch is dropped: the tag
      points carry exactly the expected payloads, in input order. */
  lemma {:induction false} ProcessBatchKeepsEveryBookWhenDelivered(env: Env, imp: Importer, books: seq<RawBook>, start: nat)
    requires forall n, text :: Delivers(env.embed(n, text))
    ensures ProcessBatch(env, imp, books, start).successfulCount == |books|
    ensures Payloads(ProcessBatch(env, imp, books, start).tagsPoints) == ExpectedPayloads(books, start)
    ensures ProcessBatch(env, imp, books, start).imp.stats.failedUploads == imp.stats.failedUploads
    decreases |books|
  {
    if |books| > 0 {
      var step := ProcessBook(env, imp, books[0], start);
      ProcessBookBuildsWhenDelivered(env, imp, books[0], start, imp.sent, imp.sent + 1);
      ProcessBatchKeepsEveryBookWhenDelivered(env, step.imp, books[1..], start + 1);
      var rest := ProcessBatch(env, step.imp, books[1..], start + 1);
      assert ([step.outcome.tagsPoint] + rest.tagsPoints)[1..] == rest.tagsPoints;
    }
  }

  /** Against a service that refuses exactly the texts in `bad`, a record is built exactly when
      neither of its own two texts is refused, whatever happened to the records before it. */
  lemma ProcessBookUnderRefusals(env: Env, imp: Importer, book: RawBook, index: nat, bad: set<string>)
    requires RefusesExactly(env.embed, bad)
    ensures ProcessBook(env, imp, book, index).outcome.Built? <==> Embeddable(book, bad)
  {
    var t := GetEmbedding(env, imp, BookTagText(book));
    assert Delivers(env.embed(imp.sent, BookTagText(book))) <==> BookTagText(book) !in bad;
    if t.vector.Some? {
      assert Delivers(env.embed(t.imp.sent, book.description.GetOr(""))) <==> book.description.GetOr("") !in bad;
    }
  }

  /** The state `process_batch` goes on with after one record: a skipped record is counted in
      `failed_uploads`. */
  function AfterRecord(step: BookStep): Importer
  {
    if step.outcome.Built? then step.imp
    else step.imp.(stats := step.imp.stats.(failedUploads := step.imp.stats.failedUploads + 1))
  }

  /** A built first record heads the batch's tag payloads. */
  lemma ProcessBatchFirstBuilt(env: Env, imp: Importer, books: seq<RawBook>, start: nat)
    requires |books| > 0 && ProcessBook(env, imp, books[0], start).outcome.Built?
    ensures Payloads(ProcessBatch(env, imp, books, start).tagsPoints)
            == [BookPayload(books[0], start)]
               + Payloads(ProcessBatch(env, ProcessBook(env, imp, books[0], start).imp, books[1..], start + 1).tagsPoints)
  {
    var step := ProcessBook(env, imp, books[0], start);
    var rest := ProcessBatch(env, step.imp, books[1..], start + 1);
    var t := step.outcome.tagsPoint;
    assert ProcessBatch(env, imp, books, start).tagsPoints == [t] + rest.tagsPoints;
    assert ([t] + rest.tagsPoints)[1..] == rest.tagsPoints;
  }

  /** A skipped first record leaves the batch to the records after it. */
  lemma ProcessBatchFirstSkipped(env: Env, imp: Importer, books: seq<RawBook>, start: nat)
    requires |books| > 0 && ProcessBook(env, imp, books[0], start).outcome.Skipped?
    ensures ProcessBatch(env, imp, books, start) == ProcessBatch(env, AfterRecord(ProcessBook(env, imp, books[0], start)), books[1..], start + 1)
  {
    var step := ProcessBook(env, imp, books[0], start);
    var counted := step.imp.(stats := step.imp.stats.(failedUploads := step.imp.stats.failedUploads + 1));
    assert AfterRecord(step) == counted;
  }

  /** A skipped record never aborts the batch: against a service that refuses exactly the texts
      in `bad`, the batch keeps precisely the records whose own texts are not refused, in input
      order, and counts every other one in `failed_uploads`. */
  lemma {:induction false} ProcessBatchIsolatesFailures(env: Env, imp: Importer, books: seq<RawBook>, start: nat, bad: set<string>)
    requires RefusesExactly(env.embed, bad)
    ensures Payloads(ProcessBatch(env, imp, books, start).tagsPoints) == KeptPayloads(books, start, bad)
    ensures ProcessBatch(env, imp, books, start).successfulCount == |KeptPayloads(books, start, bad)|
    decreases |books|
  {
    if |books| > 0 {
      var step := ProcessBook(env, imp, books[0], start);
      ProcessBookUnderRefusals(env, imp, books[0], start, bad);
      if step.outcome.Built? {
        ProcessBatchFirstBuilt(env, imp, books, start);
      } else {
        ProcessBatchFirstSkipped(env, imp, books, start);
      }
      ProcessBatchIsolatesFailures(env, AfterRecord(step), books[1..], start + 1, bad);
    }
  }

  /** One record whose tag text alone is refused, a text no other record uses: the batch keeps
      every other record, in order, and counts exactly one failure. */
  lemma ProcessBatchDropsOnlyTheRefusedRecord(env: Env, imp: Importer, books: seq<RawBook>, start: nat, j: nat)
    requires j < |books|
    requires RefusesExactly(env.embed, {BookTagText(books[j])})
    requires forall i :: 0 <= i < |books| && i != j ==> Embeddable(books[i], {BookTagText(books[j])})
    ensures ProcessBatch(env, imp, books, start).successfulCount == |books| - 1
    ensures Payloads(ProcessBatch(env, imp, books, start).tagsPoints)
            == ExpectedPayloads(books, start)[..j] + ExpectedPayloads(books, start)[j + 1..]
    ensures ProcessBatch(env, imp, books, start).imp.stats.failedUploads == imp.stats.failedUploads + 1
  {
    var bad := {BookTagText(books[j])};
    assert !Embeddable(books[j], bad);
    KeptPayloadsWithoutOne(books, start, bad, j);
    ProcessBatchIsolatesFailures(env, imp, books, start, bad);
  }

  datatype UpsertOutcome = UpsertOutcome(ok: bool, requested: bool)

  /** `upsert_to_qdrant`: an empty list succeeds without a request; otherwise the store must
      answer 200 with `"status": "ok"`. */
  function UpsertToQdrant(points: seq<Point>, reply: StoreReply): (r: UpsertOutcome)
    ensures r.requested <==> |points| > 0
    ensures r.ok <==> |points| == 0 || Acknowledged(reply)
  {
    if |points| == 0 then UpsertOutcome(true, false)
    else UpsertOutcome(Acknowledged(reply), true)
  }

  /** `check_collection_exists`: a 200 reply to the collection lookup. */
  function CollectionExists(reply: StoreReply): bool
  {
    reply.StoreReply? && reply.status == 200
  }

  /** `create_collection`: a 200 reply with `"status": "ok"`. */
  function CreateCollection(reply: StoreReply): bool
  {
    Acknowledged(reply)
  }

  /** The reply to the scroll request (one page of at most 10000 points): the status and the
      identifiers under `result.points` (None when the body lacks them). */
  datatype ScrollReply = ScrollReply(status: int, pointIds: Option<seq<string>>) | ScrollRaised

  datatype ClearOutcome = ClearOutcome(ok: bool, deleted: seq<string>)

  /** `clear_collection`: scroll one page of identifiers; an empty page is already clear;
      otherwise delete them and require 200 with `"status": "ok"`. */
  function ClearCollection(scroll: ScrollReply, delete: StoreReply): (r: ClearOutcome)
    ensures |r.deleted| > 0 <==> scroll.ScrollReply? && scroll.status == 200 && scroll.pointIds.Some? && |scroll.pointIds.value| > 0
    ensures |r.deleted| > 0 ==> r.deleted == scroll.pointIds.value
    ensures r.ok <==> && scroll.ScrollReply? && scroll.status == 200 && scroll.pointIds.Some?
                      && (|scroll.pointIds.value| == 0 || Acknowledged(delete))
  {
    if !scroll.ScrollReply? || scroll.status != 200 || scroll.pointIds.None? then ClearOutcome(false, [])
    else if |scroll.pointIds.value| == 0 then ClearOutcome(true, [])
    else ClearOutcome(Acknowledged(delete), scroll.pointIds.value)
  }

  /** The store's replies to the requests `setup_collections` may make for one collection. */
  datatype CollectionReplies = CollectionReplies(lookup: StoreReply, create: StoreReply, scroll: ScrollReply, delete: StoreReply)

  /** A store request made while setting up collections. */
  datatype Action = Looked(c: Collection) | Created(c: Collection) | Cleared(c: Collection)

  datatype SetupOutcome = SetupOutcome(ok: bool, actions: seq<Action>)

  /** One turn of the loop in `setup_collections`. */
  function SetupOne(c: Collection, clearExisting: bool, replies: CollectionReplies): (r: SetupOutcome)
    ensures |r.actions| > 0 && r.actions[0] == Looked(c)
    ensures forall a :: a in r.actions ==> a.c == c
    ensures Created(c) in r.actions <==> !CollectionExists(replies.lookup)
    ensures Cleared(c) in r.actions <==> clearExisting && CollectionExists(replies.lookup)
    ensures r.ok <==> if CollectionExists(replies.lookup)
                      then !clearExisting || ClearCollection(replies.scroll, replies.delete).ok
                      else CreateCollection(replies.create)
  {
    if CollectionExists(replies.lookup) then
      if clearExisting then SetupOutcome(ClearCollection(replies.scroll, replies.delete).ok, [Looked(c), Cleared(c)])
      else SetupOutcome(true, [Looked(c)])
    else SetupOutcome(CreateCollection(replies.create), [Looked(c), Created(c)])
  }

  /** `setup_collections`: `tags_vecs` then `desc_vecs`, stopping at the first failure. */
  function SetupCollections(clearExisting: bool, tags: CollectionReplies, desc: CollectionReplies): (r: SetupOutcome)
    ensures r.ok <==> SetupOne(TagsVecs, clearExisting, tags).ok && SetupOne(DescVecs, clearExisting, desc).ok
    ensures !SetupOne(TagsVecs, clearExisting, tags).ok ==> forall a :: a in r.actions ==> a.c == TagsVecs
    ensures !clearExisting ==> forall a :: a in r.actions ==> !a.Cleared?
  {
    var t := SetupOne(TagsVecs, clearExisting, tags);
    if !t.ok then t
    else
      var d := SetupOne(DescVecs, clearExisting, desc);
      SetupOutcome(d.ok, t.actions + d.actions)
  }

  /** A successful clear deletes the whole page the scroll listed, and nothing else. */
  lemma ClearedPageIsDeleted(scroll: ScrollReply, delete: StoreReply)
    requires ClearCollection(scroll, delete).ok
    ensures ClearCollection(scroll, delete).deleted == scroll.pointIds.value
    ensures |scroll.pointIds.value| > 0 ==> Acknowledged(delete)
  {
  }

  /** After a successful setup both collections exist: each was found by its lookup or created
      with an acknowledged reply; with clearing asked for, each one found was cleared; and the
      store saw the lookups of both collections. */
  lemma SetupCollectionsLeavesBothExisting(clearExisting: bool, tags: CollectionReplies, desc: CollectionReplies)
    requires SetupCollections(clearExisting, tags, desc).ok
    ensures CollectionExists(tags.lookup) || Acknowledged(tags.create)
    ensures CollectionExists(desc.lookup) || Acknowledged(desc.create)
    ensures clearExisting && CollectionExists(tags.lookup) ==> ClearCollection(tags.scroll, tags.delete).ok
    ensures clearExisting && CollectionExists(desc.lookup) ==> ClearCollection(desc.scroll, desc.delete).ok
    ensures Looked(TagsVecs) in SetupCollections(clearExisting, tags, desc).actions
    ensures Looked(DescVecs) in SetupCollections(clearExisting, tags, desc).actions
  {
    var t := SetupOne(TagsVecs, clearExisting, tags);
    var d := SetupOne(DescVecs, clearExisting, desc);
    assert (t.actions + d.actions)[0] == Looked(TagsVecs);
    assert (t.actions + d.actions)[|t.actions|] == Looked(DescVecs);
  }

  /** The result of one turn of the batch loop: the new state, how many records of the batch were
      built, and whether the batch reached both collections. */
  datatype Turn = Turn(imp: Importer, built: nat, uploaded: bool)

  /** One turn of the batch loop of `import_books`: process the batch, skip the upload when no
      record was built, upsert to `tags_vecs`, and only after that succeeded upsert to `desc_vecs`;
      `processed_books` grows by the batch size and `successful_uploads` by the built count only
      when both upserts succeeded. The store's reply to an upsert is the one to the n-th upsert
      request of the run. */
  function BatchStep(env: Env, imp: Importer, batch: seq<RawBook>, start: nat): (r: Turn)
    ensures GuardedDualWrites(imp.uploads) ==> GuardedDualWrites(r.imp.uploads)
    ensures r.built == ProcessBatch(env, imp, batch, start).successfulCount
    ensures r.built <= |batch|
    ensures r.imp.stats.totalBooks == imp.stats.totalBooks
    ensures r.imp.stats.failedUploads == imp.stats.failedUploads + |batch| - r.built
    ensures !r.uploaded ==> && r.imp.stats.processedBooks == imp.stats.processedBooks
                            && r.imp.stats.successfulUploads == imp.stats.successfulUploads
    ensures r.uploaded ==> && r.imp.stats.processedBooks == imp.stats.processedBooks + |batch|
                           && r.imp.stats.successfulUploads == imp.stats.successfulUploads + r.built
                           && r.built > 0
                           && |r.imp.uploads| == |imp.uploads| + 2
                           && r.imp.uploads[|imp.uploads|].collection == TagsVecs
                           && r.imp.uploads[|imp.uploads| + 1].collection == DescVecs
                           && r.imp.uploads[|imp.uploads|].ok && r.imp.uploads[|imp.uploads| + 1].ok
    ensures |imp.uploads| <= |r.imp.uploads| <= |imp.uploads| + 2
    ensures r.imp.uploads[..|imp.uploads|] == imp.uploads
    ensures r.uploaded <==> && r.built > 0
                            && Acknowledged(env.store(|imp.uploads|))
                            && Acknowledged(env.store(|imp.uploads| + 1))
    ensures r.built == 0 ==> r.imp.uploads == imp.uploads
    ensures r.built > 0 ==> && |r.imp.uploads| > |imp.uploads|
                            && r.imp.uploads[|imp.uploads|].collection == TagsVecs
                            && r.imp.uploads[|imp.uploads|].ok == Acknowledged(env.store(|imp.uploads|))
    ensures r.built > 0 && Acknowledged(env.store(|imp.uploads|)) ==>
              && |r.imp.uploads| == |imp.uploads| + 2
              && r.imp.uploads[|imp.uploads| + 1].ok == Acknowledged(env.store(|imp.uploads| + 1))
  {
    var b := ProcessBatch(env, imp, batch, start);
    if |b.tagsPoints| == 0 || |b.descPoints| == 0 then Turn(b.imp, b.successfulCount, false)
    else
      var n := |b.imp.uploads|;
      var tagsOk := UpsertToQdrant(b.tagsPoints, env.store(n)).ok;
      var tagsUpload := Upload(TagsVecs, Ids(b.tagsPoints), tagsOk);
      if !tagsOk then
        GuardedDualWritesAppend(b.imp.uploads, [tagsUpload]);
        Turn(b.imp.(uploads := b.imp.uploads + [tagsUpload]), b.successfulCount, false)
      else
        var descOk := UpsertToQdrant(b.descPoints, env.store(n + 1)).ok;
        var descUpload := Upload(DescVecs, Ids(b.descPoints), descOk);
        assert Ids(b.tagsPoints) == Ids(b.descPoints);
        GuardedDualWritesAppend(b.imp.uploads, [tagsUpload, descUpload]);
        var logged := b.imp.(uploads := b.imp.uploads + [tagsUpload, descUpload]);
        if !descOk then Turn(logged, b.successfulCount, false)
        else Turn(logged.(stats := logged.stats.(processedBooks := logged.stats.processedBooks + |batch|,
                                                 successfulUploads := logged.stats.successfulUploads + b.successfulCount)),
                  b.successfulCount, true)
  }

  /** A batch whose every embedding is delivered and whose two upserts are acknowledged is
      uploaded whole: every record counts as processed and as a successful upload. */
  lemma BatchStepUploadsWhenAllSucceed(env: Env, imp: Importer, batch: seq<RawBook>, start: nat)
    requires |batch| > 0
    requires forall n, text :: Delivers(env.embed(n, text))
    requires Acknowledged(env.store(|imp.uploads|)) && Acknowledged(env.store(|imp.uploads| + 1))
    ensures BatchStep(env, imp, batch, start).uploaded
    ensures BatchStep(env, imp, batch, start).imp.stats.processedBooks == imp.stats.processedBooks + |batch|
    ensures BatchStep(env, imp, batch, start).imp.stats.successfulUploads == imp.stats.successfulUploads + |batch|
    ensures BatchStep(env, imp, batch, start).imp.stats.failedUploads == imp.stats.failedUploads
  {
    ProcessBatchKeepsEveryBookWhenDelivered(env, imp, batch, start);
  }

  /** The counters after `done` records of a run of `total`: each record counted at most once as
      uploaded or failed, and `successful_uploads <= processed_books <= done`. */
  predicate CountsWithin(s: Stats, done: nat, total: nat)
  {
    && s.totalBooks == total
    && s.successfulUploads <= s.processedBooks <= done
    && s.successfulUploads + s.failedUploads <= done
  }

  /** A turn over a batch keeps the counters within the records handled so far. */
  lemma BatchStepKeepsCounts(env: Env, imp: Importer, batch: seq<RawBook>, start: nat, done: nat, total: nat)
    requires CountsWithin(imp.stats, done, total)
    ensures CountsWithin(BatchStep(env, imp, batch, start).imp.stats, done + |batch|, total)
  {
  }

  /** The state the batch loop carries on with after one turn: the upsert log stays guarded,
      and each counter grows by at most the batch, `successful_uploads` by no more than
      `processed_books`, and uploaded plus failed records by no more than the batch size. */
  function AfterBatch(env: Env, imp: Importer, batch: seq<RawBook>, start: nat): (next: Importer)
    ensures GuardedDualWrites(imp.uploads) ==> GuardedDualWrites(next.uploads)
    ensures next.stats.totalBooks == imp.stats.totalBooks
    ensures next.stats.successfulUploads - imp.stats.successfulUploads
            <= next.stats.processedBooks - imp.stats.processedBooks <= |batch|
    ensures next.stats.successfulUploads + next.stats.failedUploads
            <= imp.stats.successfulUploads + imp.stats.failedUploads + |batch|
  {
    BatchStep(env, imp, batch, start).imp
  }

  /** The same for the state the batch loop carries on with, against reliable services. */
  lemma AfterBatchUploadsWhenAllSucceed(env: Env, imp: Importer, batch: seq<RawBook>, start: nat)
    requires |batch| > 0
    requires Reliable(env.embed, env.store)
    ensures AfterBatch(env, imp, batch, start).stats.processedBooks == imp.stats.processedBooks + |batch|
    ensures AfterBatch(env, imp, batch, start).stats.successfulUploads == imp.stats.successfulUploads + |batch|
    ensures AfterBatch(env, imp, batch, start).stats.failedUploads == imp.stats.failedUploads
  {
    forall n: nat, text: string
      ensures Delivers(env.embed(n, text))
    {
      assert DeliversAt(env.embed, n, text);
    }
    assert AcknowledgedAt(env.store, |imp.uploads|) && AcknowledgedAt(env.store, |imp.uploads| + 1);
    BatchStepUploadsWhenAllSucceed(env, imp, batch, start);
  }
}

=== FILE: enhanced_import.dfy ===
/** import_books_enhanced.py, `import_books`: the batch loop over the loaded file as a fold of
    the turns of the `BookImporter`, and the run around it. */
module EnhancedImport {
  import opened Wrappers
  import opened Batching
  import opened Embedding
  import opened Records
  import opened Enhanced

  function Initial(total: nat): Importer
  {
    Importer(Stats(total, 0, 0, 0, 0), 0, [])
  }

  /** One turn of the batch loop as a step of the fold. */
  function Step(env: Env): (Importer, seq<RawBook>, nat) -> Importer
  {
    (imp: Importer, batch: seq<RawBook>, start: nat) => AfterBatch(env, imp, batch, start)
  }

  /** The batch loop as a fold: one turn per batch of `bs`, in order, each batch starting at the
      file position that follows the batches before it. */
  function Run(env: Env, imp: Importer, bs: seq<seq<RawBook>>, start: nat): Importer
  {
    Fold(Step(env), imp, bs, start)
  }

  /** One turn of the batch loop at file position `i`, from a state that has handled the first
      `i` records: afterwards the first `Min(i + batch_size, n)` records are handled, the
      counters stay within them, and the fold over the remaining batches still gives the run's
      result. */
  lemma ImportStep(env: Env, imp: Importer, books: seq<RawBook>, i: nat, batchSize: nat, whole: Importer)
    requires batchSize > 0 && i < |books|
    requires GuardedDualWrites(imp.uploads)
    requires CountsWithin(imp.stats, i, |books|)
    requires Run(env, imp, Batches(books[i..], batchSize), i) == whole
    requires Reliable(env.embed, env.store) ==>
        imp.stats.processedBooks == imp.stats.successfulUploads == i && imp.stats.failedUploads == 0
    ensures var next := AfterBatch(env, imp, books[i..Min(i + batchSize, |books|)], i);
            var done := Min(i + batchSize, |books|);
            && CountsWithin(next.stats, done, |books|)
            && Run(env, next, Batches(books[done..], batchSize), done) == whole
            && (Reliable(env.embed, env.store) ==>
                  next.stats.processedBooks == next.stats.successfulUploads == done && next.stats.failedUploads == 0)
  {
    var batch := books[i..Min(i + batchSize, |books|)];
    FoldNext(Step(env), imp, books, i, batchSize);
    if Reliable(env.embed, env.store) {
      AfterBatchUploadsWhenAllSucceed(env, imp, batch, i);
    }
  }

  /** The batching loop of `import_books`: `for i in range(0, len(books), batch_size)` over the
      slices `books[i:i + batch_size]`. It runs `total_batches` turns over exactly the batches that
      partition the input, and its result is the fold `Run` of the turns over those batches; it
      ends with `successful_uploads <= processed_books <= total_books`, every record counted at
      most once, as uploaded or as failed. When every embedding is delivered and every upsert
      acknowledged, every record ends up processed and uploaded and none failed. */
  method ImportLoop(env: Env, books: seq<RawBook>, batchSize: nat) returns (imp: Importer, batchNum: nat, ghost visited: seq<seq<RawBook>>)
    requires batchSize > 0
    ensures visited == Batches(books, batchSize)
    ensures batchNum == CeilDiv(|books|, batchSize)
    ensures imp.stats.successfulUploads <= imp.stats.processedBooks <= imp.stats.totalBooks
    ensures imp.stats.totalBooks == |books|
    ensures imp.stats.successfulUploads + imp.stats.failedUploads <= |books|
    ensures GuardedDualWrites(imp.uploads)
    ensures imp == Run(env, Initial(|books|), Batches(books, batchSize), 0)
    ensures Reliable(env.embed, env.store) ==>
        imp.stats.processedBooks == imp.stats.successfulUploads == |books| && imp.stats.failedUploads == 0
  {
    imp := Initial(|books|);
    var i := 0;
    batchNum := 0;
    visited := [];
    ghost var done := 0;
    ghost var whole := Run(env, imp, Batches(books, batchSize), 0);
    assert books[done..] == books;
    while i < |books|
      invariant done == Min(i, |books|)
      invariant GuardedDualWrites(imp.uploads)
      invariant CountsWithin(imp.stats, done, |books|)
      invariant visited + Batches(books[done..], batchSize) == Batches(books, batchSize)
      invariant batchNum == |visited|
      invariant Run(env, imp, Batches(books[done..], batchSize), done) == whole
      invariant Reliable(env.embed, env.store) ==>
          imp.stats.processedBooks == imp.stats.successfulUploads == done && imp.stats.failedUploads == 0
      decreases |books| - i
    {
      var batch := books[i..Min(i + batchSize, |books|)];
      BatchesTake(books, i, batchSize, visited);
      ImportStep(env, imp, books, i, batchSize, whole);
      visited := visited + [batch];
      batchNum := batchNum + 1;
      imp := AfterBatch(env, imp, batch, i);
      done := Min(i + batchSize, |books|);
      i := i + batchSize;
    }
    assert books[done..] == [];
    BatchesPartition(books, batchSize);
  }

  /** Where `import_books` stopped before importing anything. */
  datatype Stage = ServiceCheck | CollectionSetup | Loading

  datatype ImportResult = Aborted(stage: Stage) | Imported(imp: Importer)

  /** `import_books`: check the services, set up the collections, load the file, then run the
      batch loop. A failed check, setup or load aborts before any import request; once loading
      succeeded the run completes, however many records or batches failed. */
  method ImportBooks(env: Env, servicesOk: bool, clearExisting: bool, tags: CollectionReplies,
                     desc: CollectionReplies, loaded: Option<seq<RawBook>>, batchSize: nat)
    returns (r: ImportResult)
    requires batchSize > 0
    ensures r.Imported? <==> servicesOk && SetupCollections(clearExisting, tags, desc).ok && loaded.Some?
    ensures r.Aborted? ==> r.stage == if !servicesOk then ServiceCheck
                                      else if !SetupCollections(clearExisting, tags, desc).ok then CollectionSetup
                                      else Loading
    ensures r.Imported? ==> && r.imp.stats.totalBooks == |loaded.value|
                            && r.imp.stats.successfulUploads <= r.imp.stats.processedBooks <= r.imp.stats.totalBooks
                            && GuardedDualWrites(r.imp.uploads)
                            && r.imp == Run(env, Initial(|loaded.value|), Batches(loaded.value, batchSize), 0)
    ensures r.Imported? && Reliable(env.embed, env.store) ==>
              && r.imp.stats.processedBooks == r.imp.stats.successfulUploads == |loaded.value|
              && r.imp.stats.failedUploads == 0
  {
    if !servicesOk {
      return Aborted(ServiceCheck);
    }
    if !SetupCollections(clearExisting, tags, desc).ok {
      return Aborted(CollectionSetup);
    }
    if loaded.None? {
      return Aborted(Loading);
    }
    var imp, _, _ := ImportLoop(env, loaded.value, batchSize);
    r := Imported(imp);
  }
}

=== FILE: identity.dfy ===
/** Deterministic point identifiers: an MD5 hex digest laid out as a UUID string. */
module Identity {

  /** The characters `hashlib`'s `hexdigest()` writes. */
  predicate IsLowerHex(c: char) { '0' <= c <= '9' || 'a' <= c <= 'f' }

  predicate IsDigest(h: string)
  {
    |h| == 32 && forall i :: 0 <= i < |h| ==> IsLowerHex(h[i])
  }

  /** A 128-bit MD5 digest as 32 lower-case hex characters. MD5 itself is not modelled:
      callers pass the digest function in. */
  type Digest = h: string | IsDigest(h) witness "00000000000000000000000000000000"

  /** The hyphen positions of the 8-4-4-4-12 layout of section 3 of RFC 4122. */
  predicate IsHyphenPosition(i: int) { i == 8 || i == 13 || i == 18 || i == 23 }

  /** A 36-character string with hyphens at the four layout positions and hex digits elsewhere. */
  predicate IsCanonicalUuid(u: string)
  {
    |u| == 36 && forall i :: 0 <= i < |u| ==> if IsHyphenPosition(i) then u[i] == '-' else IsLowerHex(u[i])
  }

  /** `book_id_to_uuid` once the digest is computed. */
  function FormatUuid(h: Digest): (u: string)
    ensures IsCanonicalUuid(u)
  {
    h[..8] + "-" + h[8..12] + "-" + h[12..16] + "-" + h[16..20] + "-" + h[20..32]
  }

  /** The string with every hyphen dropped. */
  function RemoveHyphens(s: string): string
    decreases |s|
  {
    if |s| == 0 then "" else (if s[0] == '-' then "" else [s[0]]) + RemoveHyphens(s[1..])
  }

  lemma {:induction false} RemoveHyphensConcat(a: string, b: string)
    ensures RemoveHyphens(a + b) == RemoveHyphens(a) + RemoveHyphens(b)
    decreases |a|
  {
    if |a| == 0 {
      assert a + b == b;
    } else {
      RemoveHyphensConcat(a[1..], b);
      assert (a + b)[1..] == a[1..] + b;
    }
  }

  lemma {:induction false} RemoveHyphensOfHex(s: string)
    requires forall i :: 0 <= i < |s| ==> IsLowerHex(s[i])
    ensures RemoveHyphens(s) == s
    decreases |s|
  {
    if |s| > 0 {
      RemoveHyphensOfHex(s[1..]);
    }
  }

  /** Joining two pieces with a hyphen and removing hyphens again just concatenates them. */
  lemma RemoveHyphensAround(a: string, b: string)
    ensures RemoveHyphens(a + "-" + b) == RemoveHyphens(a) + RemoveHyphens(b)
  {
    var dash := "-";
    var ad := a + dash;
    RemoveHyphensConcat(ad, b);
    RemoveHyphensConcat(a, dash);
    assert RemoveHyphens(dash) == "" by {
      assert dash[1..] == "";
    }
    assert RemoveHyphens(ad) == RemoveHyphens(a);
  }

  /** Hyphen-joins five hex pieces and shows that removing the hyphens concatenates them. */
  lemma RemoveHyphensOfFive(p1: string, p2: string, p3: string, p4: string, p5: string)
    requires forall i :: 0 <= i < |p1| ==> IsLowerHex(p1[i])
    requires forall i :: 0 <= i < |p2| ==> IsLowerHex(p2[i])
    requires forall i :: 0 <= i < |p3| ==> IsLowerHex(p3[i])
    requires forall i :: 0 <= i < |p4| ==> IsLowerHex(p4[i])
    requires forall i :: 0 <= i < |p5| ==> IsLowerHex(p5[i])
    ensures RemoveHyphens(p1 + "-" + p2 + "-" + p3 + "-" + p4 + "-" + p5) == p1 + p2 + p3 + p4 + p5
  {
    RemoveHyphensOfHex(p1);
    RemoveHyphensOfHex(p2);
    RemoveHyphensOfHex(p3);
    RemoveHyphensOfHex(p4);
    RemoveHyphensOfHex(p5);
    var a2 := p1 + "-" + p2;
    RemoveHyphensAround(p1, p2);
    var a3 := a2 + "-" + p3;
    RemoveHyphensAround(a2, p3);
    var a4 := a3 + "-" + p4;
    RemoveHyphensAround(a3, p4);
    RemoveHyphensAround(a4, p5);
  }

  /** Removing the hyphens of a formatted identifier gives back the digest. */
  lemma RemoveHyphensOfFormat(h: Digest)
    ensures RemoveHyphens(FormatUuid(h)) == h
  {
    RemoveHyphensOfFive(h[..8], h[8..12], h[12..16], h[16..20], h[20..32]);
    assert h[..8] + h[8..12] + h[12..16] + h[16..20] + h[20..32] == h;
  }

  /** Every canonical identifier is the layout of exactly the digest its hex digits spell. */
  lemma CanonicalUuidRoundTrip(u: string)
    requires IsCanonicalUuid(u)
    ensures IsDigest(RemoveHyphens(u))
    ensures FormatUuid(RemoveHyphens(u)) == u
  {
    var p1, p2, p3, p4, p5 := u[..8], u[9..13], u[14..18], u[19..23], u[24..36];
    assert u == p1 + "-" + p2 + "-" + p3 + "-" + p4 + "-" + p5;
    RemoveHyphensOfFive(p1, p2, p3, p4, p5);
    var h := p1 + p2 + p3 + p4 + p5;
    assert forall i :: 0 <= i < 32 ==> IsLowerHex(h[i]);
    assert h[..8] == p1 && h[8..12] == p2 && h[12..16] == p3 && h[16..20] == p4 && h[20..32] == p5;
  }

  /** The identifier of a book key: its MD5 digest in UUID layout. */
  function PointId(md5: string -> Digest, key: string): string
  {
    FormatUuid(md5(key))
  }

  /** Two keys get the same identifier exactly when their digests agree: the layout loses nothing,
      so identifiers are as collision-free as MD5 and a re-run maps each key to the same point. */
  lemma PointIdsEqualIffDigestsEqual(md5: string -> Digest, k1: string, k2: string)
    ensures PointId(md5, k1) == PointId(md5, k2) <==> md5(k1) == md5(k2)
  {
    if PointId(md5, k1) == PointId(md5, k2) {
      RemoveHyphensOfFormat(md5(k1));
      RemoveHyphensOfFormat(md5(k2));
    }
  }
}

=== FILE: records.dfy ===
/** Book records, points and the store's replies, shared by the three import scripts. */
module Records {
  import opened Wrappers
  import opened Text
  import Embedding

  /** A book object as loaded from the JSON file; None marks a key the object lacks. */
  datatype RawBook = RawBook(
    bookId: Option<string>,
    title: Option<string>,
    author: Option<string>,
    description: Option<string>,
    tags: Option<seq<string>>,
    language: Option<string>,
    coverUrl: Option<string>)

  /** The JSON values a payload holds: a string or a list of strings. */
  datatype Json = Str(s: string) | Strs(items: seq<string>)

  /** One key of a JSON object. */
  datatype Field = Field(key: string, value: Json)

  /** A JSON object as the scripts write it: its keys in insertion order. */
  type Payload = seq<Field>

  /** One point of a Qdrant collection. */
  datatype Point = Point(id: string, vector: Embedding.Vector, payload: Payload)

  /** What building one record's two points came to. */
  datatype BookOutcome = Built(tagsPoint: Point, descPoint: Point) | Skipped

  /** The two target collections. */
  datatype Collection = TagsVecs | DescVecs {
    function Name(): string {
      match this
      case TagsVecs => "tags_vecs"
      case DescVecs => "desc_vecs"
    }
  }

  const BookType := "book"
  const DescType := "book_desc"
  const CategoryPrefix := "分類："
  const TitlePrefix := "書名："
  const DefaultLanguage := "中文"

  /** What one store request yields: an HTTP status with the body's `status` field (None when the
      field is absent or the body is not JSON), or a transport exception. */
  datatype StoreReply = StoreReply(status: int, bodyStatus: Option<string>) | StoreRaised

  /** The reply the store gives to the n-th upsert request of a run. */
  type StoreService = nat -> StoreReply

  /** A reply with status 200 whose body says `"status": "ok"`. */
  predicate Acknowledged(r: StoreReply)
  {
    r.StoreReply? && r.status == 200 && r.bodyStatus == Some("ok")
  }

  /** One upsert request: the target, the point identifiers sent and whether it was reported a success. */
  datatype Upload = Upload(collection: Collection, ids: seq<string>, ok: bool)

  /** Every embedding request is delivered and every upsert acknowledged. Each half is stated
      through a named predicate, so that it only applies to the requests a proof names. */
  ghost predicate Reliable(embed: Embedding.Service, store: StoreService)
  {
    && (forall n, text :: Embedding.DeliversAt(embed, n, text))
    && (forall n :: AcknowledgedAt(store, n))
  }

  predicate AcknowledgedAt(store: StoreService, n: nat)
  {
    Acknowledged(store(n))
  }

  /** Every upsert to `desc_vecs` directly follows a successful upsert of the same identifiers to
      `tags_vecs`: the description collection never receives a point the tag collection was not
      given first. */
  predicate GuardedDualWrites(log: seq<Upload>)
  {
    forall k :: 0 <= k < |log| ==> GuardedAt(log, k)
  }

  /** The upsert at position `k` of the log is not a description upsert, or directly follows a
      successful tag upsert of the same identifiers. */
  predicate GuardedAt(log: seq<Upload>, k: nat)
    requires k < |log|
  {
    log[k].collection == DescVecs ==>
      k > 0 && log[k - 1].collection == TagsVecs && log[k - 1].ok && log[k - 1].ids == log[k].ids
  }

  /** Appending a lone tag upsert, or a successful tag upsert followed by a description upsert of
      the same identifiers, keeps the log guarded. */
  lemma GuardedDualWritesAppend(log: seq<Upload>, tail: seq<Upload>)
    requires |tail| == 1 ==> tail[0].collection == TagsVecs
    requires |tail| == 2 ==> tail[0].collection == TagsVecs && tail[0].ok
                             && tail[1].collection == DescVecs && tail[0].ids == tail[1].ids
    requires |tail| <= 2
    ensures GuardedDualWrites(log) ==> GuardedDualWrites(log + tail)
  {
    if GuardedDualWrites(log) {
      var full := log + tail;
      forall k | 0 <= k < |full| && full[k].collection == DescVecs
        ensures GuardedAt(full, k)
      {
        if k < |log| {
          assert GuardedAt(log, k);
          assert full[k] == log[k] && full[k - 1] == log[k - 1];
        } else {
          assert k == |log| + 1 && full[k - 1] == tail[0] && full[k] == tail[1];
        }
      }
    }
  }

  function Ids(points: seq<Point>): (ids: seq<string>)
    ensures |ids| == |points|
    ensures forall k :: 0 <= k < |points| ==> ids[k] == points[k].id
  {
    seq(|points|, k requires 0 <= k < |points| => points[k].id)
  }

  /** `f"bk_{index}"`, the key of a record without `book_id`. */
  function FallbackKey(index: nat): string
  {
    "bk_" + NatToString(index)
  }

  /** Records without `book_id` at different positions get different keys. */
  lemma FallbackKeysDistinct(i: nat, j: nat)
    ensures FallbackKey(i) == FallbackKey(j) <==> i == j
  {
    if FallbackKey(i) == FallbackKey(j) {
      assert FallbackKey(i)[3..] == NatToString(i);
      assert FallbackKey(j)[3..] == NatToString(j);
      NatToStringInjective(i, j);
    }
  }

  /** `book.get("book_id", f"bk_{index}")`. */
  function BookKey(book: RawBook, index: nat): string
  {
    book.bookId.GetOr(FallbackKey(index))
  }

  /** `"分類：" + ", ".join(tags)`. */
  function CategoryText(tags: seq<string>): string
  {
    CategoryPrefix + Join(", ", tags)
  }

  /** `f"分類：{', '.join(tags)}" if tags else f"書名：{title}"`. */
  function TagText(tags: seq<string>, title: string): string
  {
    if |tags| > 0 then CategoryText(tags) else TitlePrefix + title
  }

  /** The tag text of a record, `tags` and `title` defaulting as `process_book` reads them. */
  function BookTagText(book: RawBook): string
  {
    TagText(book.tags.GetOr([]), book.title.GetOr(""))
  }

  /** The tag text is a category text exactly when the record has tags; then every tag occurs
      in it, and otherwise it is the title behind the title prefix. */
  lemma TagTextShape(tags: seq<string>, title: string)
    ensures CategoryPrefix <= TagText(tags, title) <==> |tags| > 0
    ensures TitlePrefix <= TagText(tags, title) <==> |tags| == 0
    ensures |tags| == 0 ==> TagText(tags, title)[|TitlePrefix|..] == title
    ensures forall k :: 0 <= k < |tags| ==> IsSubstring(tags[k], TagText(tags, title))
  {
    var t := TagText(tags, title);
    assert CategoryPrefix[0] != TitlePrefix[0];
    if |tags| > 0 {
      assert t[..|CategoryPrefix|] == CategoryPrefix;
      forall k | 0 <= k < |tags|
        ensures IsSubstring(tags[k], t)
      {
        JoinContainsEachPart(", ", tags, k);
        SubstringBehindPrefix(tags[k], CategoryPrefix, Join(", ", tags));
      }
    } else {
      assert t[..|TitlePrefix|] == TitlePrefix;
    }
  }

  /** A tag point and a description point for the same book: one identifier, and a description
      payload holding exactly the tag payload's `book_id` and the type `book_desc`. */
  predicate Paired(t: Point, d: Point)
  {
    && d.id == t.id
    && |t.payload| > 0
    && t.payload[0].key == "book_id"
    && d.payload == [t.payload[0], Field("type", Str(DescType))]
  }

  /** The full metadata payload the tag point of the enhanced and 1000-book scripts carries. */
  function BookPayload(book: RawBook, index: nat): Payload
  {
    [ Field("book_id", Str(BookKey(book, index))),
      Field("title", Str(book.title.GetOr(""))),
      Field("author", Str(book.author.GetOr(""))),
      Field("description", Str(book.description.GetOr(""))),
      Field("tags", Strs(book.tags.GetOr([]))),
      Field("language", Str(book.language.GetOr(DefaultLanguage))),
      Field("cover_url", Str(book.coverUrl.GetOr(""))),
      Field("type", Str(BookType)) ]
  }

  /** The minimal payload of a description point: the key and the type discriminator. */
  function DescPayload(key: string): Payload
  {
    [Field("book_id", Str(key)), Field("type", Str(DescType))]
  }

  /** The payloads the records of a batch starting at position `start` would get, in input order. */
  function ExpectedPayloads(books: seq<RawBook>, start: nat): (ps: seq<Payload>)
    ensures |ps| == |books|
    decreases |books|
  {
    if |books| == 0 then [] else [BookPayload(books[0], start)] + ExpectedPayloads(books[1..], start + 1)
  }

  function Payloads(points: seq<Point>): (ps: seq<Payload>)
    ensures |ps| == |points|
    decreases |points|
  {
    if |points| == 0 then [] else [points[0].payload] + Payloads(points[1..])
  }

  /** A service that refuses exactly the texts in `bad`, whatever the request number: a record's
      fate then depends only on its own two texts. */
  ghost predicate RefusesExactly(svc: Embedding.Service, bad: set<string>)
  {
    forall n, text :: Embedding.Delivers(svc(n, text)) <==> text !in bad
  }

  /** Neither of the record's two embedding texts is refused. */
  predicate Embeddable(book: RawBook, bad: set<string>)
  {
    BookTagText(book) !in bad && book.description.GetOr("") !in bad
  }

  /** The expected payloads of the embeddable records only, in input order: the reference for
      what a batch keeps when the texts in `bad` are refused. */
  function KeptPayloads(books: seq<RawBook>, start: nat, bad: set<string>): (ps: seq<Payload>)
    ensures |ps| <= |books|
    decreases |books|
  {
    if |books| == 0 then []
    else (if Embeddable(books[0], bad) then [BookPayload(books[0], start)] else [])
         + KeptPayloads(books[1..], start + 1, bad)
  }

  /** When every record is embeddable, every expected payload is kept. */
  lemma {:induction false} KeptPayloadsAll(books: seq<RawBook>, start: nat, bad: set<string>)
    requires forall i :: 0 <= i < |books| ==> Embeddable(books[i], bad)
    ensures KeptPayloads(books, start, bad) == ExpectedPayloads(books, start)
    decreases |books|
  {
    if |books| > 0 {
      KeptPayloadsAll(books[1..], start + 1, bad);
    }
  }

  /** When exactly the record at position j is not embeddable, the kept payloads are the
      expected ones with entry j removed. */
  lemma {:induction false} KeptPayloadsWithoutOne(books: seq<RawBook>, start: nat, bad: set<string>, j: nat)
    requires j < |books|
    requires forall i :: 0 <= i < |books| ==> (Embeddable(books[i], bad) <==> i != j)
    ensures KeptPayloads(books, start, bad) == ExpectedPayloads(books, start)[..j] + ExpectedPayloads(books, start)[j + 1..]
    decreases |books|
  {
    var e := ExpectedPayloads(books, start);
    var r := ExpectedPayloads(books[1..], start + 1);
    assert e == [BookPayload(books[0], start)] + r;
    if j == 0 {
      assert !Embeddable(books[0], bad);
      KeptPayloadsAll(books[1..], start + 1, bad);
      assert KeptPayloads(books, start, bad) == KeptPayloads(books[1..], start + 1, bad);
      assert e[j + 1..] == r;
    } else {
      assert Embeddable(books[0], bad);
      KeptPayloadsWithoutOne(books[1..], start + 1, bad, j - 1);
      assert KeptPayloads(books, start, bad) == [BookPayload(books[0], start)] + KeptPayloads(books[1..], start + 1, bad);
      assert e[..j] == [BookPayload(books[0], start)] + r[..j - 1];
      assert e[j + 1..] == r[j..];
    }
  }

  /** xs is obtained from ys by deleting elements, keeping the order of the rest. */
  predicate IsSubsequence<T(==)>(xs: seq<T>, ys: seq<T>)
    decreases |ys|
  {
    if |xs| == 0 then true
    else if |ys| == 0 then false
    else (xs[0] == ys[0] && IsSubsequence(xs[1..], ys[1..])) || IsSubsequence(xs, ys[1..])
  }

  /** A subsequence of a tail is a subsequence of the whole. */
  lemma SubsequenceOfTail<T>(xs: seq<T>, ys: seq<T>)
    requires |ys| > 0 && IsSubsequence(xs, ys[1..])
    ensures IsSubsequence(xs, ys)
  {
  }
}

=== FILE: text.dfy ===
/** The few string operations of Python the import scripts rely on. */
module Text {

  /** Python's `sep.join(parts)`. */
  function Join(sep: string, parts: seq<string>): string
    decreases |parts|
  {
    if |parts| == 0 then ""
    else if |parts| == 1 then parts[0]
    else parts[0] + sep + Join(sep, parts[1..])
  }

  /** Python's `needle in hay` on strings: the needle starts at some position of the hay. */
  predicate IsSubstring(needle: string, hay: string)
    decreases |hay|
  {
    needle <= hay || (|hay| > 0 && IsSubstring(needle, hay[1..]))
  }

  /** The recursive definition agrees with "some suffix of hay starts with needle". */
  lemma {:induction false} SubstringIffSomeSuffix(needle: string, hay: string)
    ensures IsSubstring(needle, hay) <==> exists i :: 0 <= i <= |hay| && needle <= hay[i..]
    decreases |hay|
  {
    if needle <= hay {
      assert hay[0..] == hay;
    } else if |hay| > 0 {
      SubstringIffSomeSuffix(needle, hay[1..]);
      if IsSubstring(needle, hay[1..]) {
        var i :| 0 <= i <= |hay[1..]| && needle <= hay[1..][i..];
        assert hay[1..][i..] == hay[i + 1..];
      }
      if exists i :: 0 <= i <= |hay| && needle <= hay[i..] {
        var i :| 0 <= i <= |hay| && needle <= hay[i..];
        assert i != 0;
        assert hay[1..][i - 1..] == hay[i..];
      }
    } else {
      assert forall i :: 0 <= i <= |hay| ==> hay[i..] == hay;
    }
  }

  /** Whatever occurs in a string also occurs in that string behind any prefix. */
  lemma {:induction false} SubstringBehindPrefix(needle: string, prefix: string, hay: string)
    requires IsSubstring(needle, hay)
    ensures IsSubstring(needle, prefix + hay)
    decreases |prefix|
  {
    if |prefix| > 0 {
      SubstringBehindPrefix(needle, prefix[1..], hay);
      assert (prefix + hay)[1..] == prefix[1..] + hay;
    } else {
      assert prefix + hay == hay;
    }
  }

  /** Every part given to `Join` occurs in the joined string. */
  lemma {:induction false} JoinContainsEachPart(sep: string, parts: seq<string>, k: int)
    requires 0 <= k < |parts|
    ensures IsSubstring(parts[k], Join(sep, parts))
    decreases |parts|
  {
    if |parts| == 1 || k == 0 {
      assert parts[0] <= Join(sep, parts);
    } else {
      JoinContainsEachPart(sep, parts[1..], k - 1);
      SubstringBehindPrefix(parts[k], parts[0] + sep, Join(sep, parts[1..]));
      assert Join(sep, parts) == (parts[0] + sep) + Join(sep, parts[1..]);
    }
  }

  predicate IsDigit(c: char) { '0' <= c <= '9' }

  function DigitChar(d: nat): (c: char)
    requires d < 10
    ensures IsDigit(c)
  {
    (('0' as int) + d) as char
  }

  function DigitValue(c: char): nat
    requires IsDigit(c)
  {
    (c as int) - ('0' as int)
  }

  /** Python's `str(n)` on a non-negative integer: decimal digits without leading zeros. */
  function NatToString(n: nat): (s: string)
    ensures |s| >= 1
    ensures forall i :: 0 <= i < |s| ==> IsDigit(s[i])
    ensures s[0] == '0' <==> n == 0
    decreases n
  {
    if n < 10 then [DigitChar(n)] else NatToString(n / 10) + [DigitChar(n % 10)]
  }

  /** The number a string of decimal digits denotes. */
  function DigitsValue(s: string): nat
    requires forall i :: 0 <= i < |s| ==> IsDigit(s[i])
    decreases |s|
  {
    if |s| == 0 then 0 else DigitsValue(s[..|s| - 1]) * 10 + DigitValue(s[|s| - 1])
  }

  /** Reading back the digits `str(n)` writes gives n. */
  lemma {:induction false} NatToStringRoundTrip(n: nat)
    ensures DigitsValue(NatToString(n)) == n
    decreases n
  {
    if n >= 10 {
      NatToStringRoundTrip(n / 10);
      var s := NatToString(n);
      assert s[..|s| - 1] == NatToString(n / 10);
    }
  }

  /** Distinct numbers have distinct decimal renderings. */
  lemma NatToStringInjective(m: nat, n: nat)
    ensures NatToString(m) == NatToString(n) <==> m == n
  {
    if NatToString(m) == NatToString(n) {
      NatToStringRoundTrip(m);
      NatToStringRoundTrip(n);
    }
  }

  /** Python's `str.lower()` restricted to the ASCII letters. */
  function LowerChar(c: char): char
  {
    if 'A' <= c <= 'Z' then ((c as int) + 32) as char else c
  }

  function Lower(s: string): (r: string)
    ensures |r| == |s|
  {
    seq(|s|, i requires 0 <= i < |s| => LowerChar(s[i]))
  }

  /** `[t.lower() for t in tags]`. */
  function LowerAll(tags: seq<string>): (r: seq<string>)
    ensures |r| == |tags|
  {
    seq(|tags|, i requires 0 <= i < |tags| => Lower(tags[i]))
  }

  /** Lower-casing twice is lower-casing once. */
  lemma LowerAllIdempotent(tags: seq<string>)
    ensures LowerAll(LowerAll(tags)) == LowerAll(tags)
  {
    forall i | 0 <= i < |tags|
      ensures LowerAll(LowerAll(tags))[i] == LowerAll(tags)[i]
    {
      assert Lower(Lower(tags[i])) == Lower(tags[i]);
    }
  }
}

=== FILE: upserts.dfy ===
/** The upsert success rules of the three import scripts, compared on every list and reply. */
module Upserts {
  import opened Wrappers
  import opened Records
  import Enhanced
  import Cleaned1000
  import Cleaned

  /** The enhanced and 1000-book rules agree on every non-empty list. They part on the empty list:
      the enhanced importer reports success without a request, while the 1000-book importer
      sends it and succeeds only on an acknowledged reply. */
  lemma EnhancedAnd1000Agree(points: seq<Point>, reply: StoreReply)
    ensures |points| > 0 ==> Cleaned1000.UpsertToQdrant(points, reply) == Enhanced.UpsertToQdrant(points, reply).ok
    ensures Enhanced.UpsertToQdrant([], reply).ok && !Enhanced.UpsertToQdrant([], reply).requested
    ensures Cleaned1000.UpsertToQdrant([], reply) <==> Acknowledged(reply)
  {
  }

  /** The cleaned-books rule accepts every reply the other two accept after a request, and also a
      200 reply whose body does not say `"status": "ok"`; every other reply it rejects. */
  lemma CleanedRuleIsLaxer(points: seq<Point>, reply: StoreReply)
    ensures Enhanced.UpsertToQdrant(points, reply).ok && |points| > 0 ==> Cleaned.UpsertToCollection(reply)
    ensures Cleaned.UpsertToCollection(reply) <==>
              || Cleaned1000.UpsertToQdrant(points, reply)
              || (reply.StoreReply? && reply.status == 200 && reply.bodyStatus != Some("ok"))
  {
  }
}

=== FILE: wrappers.dfy ===
/** A value that a JSON object or a service reply may lack. */
module Wrappers {

  datatype Option<+T> = None | Some(value: T) {

    /** Python's `d.get(key, default)`: the value when present, the default otherwise. */
    function GetOr(default: T): T {
      match this
      case Some(v) => v
      case None => default
    }
  }
}
